=== FILE: README.md ===
# IoTServer registry and command engine in Dafny

This project models the server side of the IoT telemetry service in
`IoTServer.java`. The server keeps five maps:

- users to passwords;
- domain names to device ids;
- one permission map, keyed both by user ids and by domain names;
- each device's last temperature;
- each device's last image.

It also appends records to two files, `data/users.txt` and
`data/devices.txt`. On start-up, before any connection is accepted, the
registry is rebuilt from the two files. Each client connection then runs two
phases:

1. a handshake: login, device-id binding into the `"default"` domain, and the
   program integrity verdict;
2. a loop of text commands: CREATE, ADD, RD, ET, EI, RT and RI.

The registry is one immutable `State` value. Every operation is a pure
function that returns the new state: the synchronized registry methods return
an `Update(state, ok)`, and the handshake and commands return the state plus
the reply they send. The two record files are part of the state as sequences
of lines, so persistence is stated inside the model.

An uncaught Java runtime exception is an `Aborted` outcome. In a client's
handler it ends that client's thread. There are four kinds of such exception:

- a null permission entry;
- an index past the end of a `split` result;
- an unparsable temperature;
- an allow-list line with no fields, or with an unusable size field.

During start-up loading, a record line with fewer than two fields throws the
same index exception. It escapes the constructor, so the server never starts;
`Persistence.Load` reports that as `Aborted` too.

Modules, in dependency order:

- `Outcomes`: `Option` and `Outcome` (a normal result, or an uncaught
  exception).
- `JavaStrings`: `String.split` for a one-character delimiter. The string is
  cut at every occurrence and trailing empty pieces are dropped. The
  join/split round trip is proved, along with the condition under which the
  result is empty.
- `Registry`: the state and the synchronized operations (`IoTServer.java:109-207`).
- `Persistence`: record parsing, replay of the two files and start-up
  loading (`IoTServer.java:32-93`).
- `Messages`: the status strings the server sends.
- `Connection`: login, the device-binding loop, the allow-list scan and the
  whole handshake (`IoTServer.java:224-263`).
- `Commands`: the per-verb command functions, dispatch, one loop iteration and
  a run over a session's input (`IoTServer.java:265-412`).
- `Invariants`: what a command may change, the properties that commands and
  handshakes preserve, and the theorem that the RI gate never grants.

Behaviours of the code worth knowing:

- A wrong password does not close the connection, and neither does a failed
  integrity check. A session opens exactly when some offered device id is
  free and the allow-list scan does not throw. It acts under the user id the
  client sent (`Connection.HandshakeOpensSession`,
  `Connection.WrongPasswordStillOpensSession`).
- Device ids are bound by their persistent membership in `"default"`, not by
  an online set of (user, device) pairs. A comma-free device id, once used,
  is refused by every later handshake, across restarts too. An id with a
  comma is not: `a,b` is written as `a,b,default` and reloads as device `a`
  in domain `b`, so `a,b` is free again after a restart.
- RI checks permission on `"default"` for both the caller and the named user.
  RI has no shared-domain test. With the in-memory permission check, nobody
  can ever hold permission on `"default"`, so RI never grants. It either
  answers no permission or, when `"default"` has no permission entry at all,
  throws (`Invariants.RunNeverReadsImages`, `Commands.ReadImageOutcome`).
  This does not hold for the program as a whole. The file fallback in
  `hasDomainPermission` (`IoTServer.java:172-181`) is not modelled, and it
  can grant `"default"`. Suppose a user named `"default"` has registered, so
  `"default"` has a permission entry. A user who registers with the password
  `x,default` writes the line `alice,x,default`, and the fallback then adds
  that user to `"default"`. Two such users pass the RI gate.
- ET with an unparsable number throws and ends the session. It does not
  answer "invalid" and carry on.
- Only CREATE and user registration write permission entries. RD never
  creates a domain, because its permission check needs the domain to exist.
  Device binding creates `"default"` without an entry. After a restart, every
  loaded domain that is not also a user id has no entry: loading gives
  entries to user ids only. So every CREATEd domain that holds a device
  and is not also a user id loses its permission set on restart, and every
  ADD, RD or RT naming it then throws (`Invariants.LoadedDomainGateThrows`,
  `Invariants.RestartLosesDomainPermissions`). A domain that is also a user
  id gets an empty entry when the users file is loaded (line 54), so those
  commands answer "no permission" instead.
- Records are written without escaping, so a comma in a field changes what
  is read back.
  - A second field whose first comma is followed, somewhere later, by a
    character other than a comma reloads cut at that comma
    (`Persistence.CommaInFieldIsTruncated`). For example, `RD a,b` writes
    the line `dev,a,b`, which reloads as device `dev` in domain `a`.
  - A second field that is empty or made only of commas does not reload at
    all. A user with password `""` writes `alice,`, and one with password
    `","` writes `alice,,`; both split to one field. The next start-up then
    indexes past the end of the split and the server does not start
    (`Persistence.CommaOnlyPasswordBreaksRestart`).
  - A comma in the first field moves the fields along. The user id `a,b`
    with password `p` reloads as user `a` with password `b`.
  The persistence lemmas therefore require comma-free fields and a non-empty
  password, but only for the records actually written.
- User ids and domain names share one permission map. Registering a user
  whose id equals a domain name empties that domain's permission set
  (`Registry.UserNamedAfterDomainRevokesIt`).

## Model

| member | source | states |
|---|---|---|
| JavaStrings.Split | IoTServer.java:267 | no piece of `s.split(c)` contains the delimiter |
| JavaStrings.SplitPieces | IoTServer.java:267 | every piece's characters come from the input, and when the delimiter occurs the last piece is non-empty |
| JavaStrings.JoinPieces | IoTServer.java:267 | gluing the raw pieces back with the delimiter gives the input again |
| JavaStrings.PiecesJoin | IoTServer.java:267 | cutting a join of delimiter-free pieces gives the pieces back |
| JavaStrings.SplitOfJoin | IoTServer.java:52-53 | round trip: delimiter-free fields joined with the delimiter split back to the same fields, provided the last is non-empty |
| JavaStrings.SplitEmpty | IoTServer.java:267-270 | the split is empty, so that `parts[0]` throws, exactly when the line is non-empty and made only of delimiters |
| Registry.AddMember | IoTServer.java:133-140 | after adding, a device is in a domain iff it was before or it is the added pair; the domain exists afterwards |
| Registry.RegisterUser | IoTServer.java:114-130 | succeeds iff the user id is new; a refusal changes nothing |
| Registry.RegisterThenAuthenticate | IoTServer.java:109-130 | after a registration, a new user authenticates exactly with the password given; every other user, and a user whose registration was refused, authenticates exactly as before |
| Registry.RegisterUserEffect | IoTServer.java:114-130 | a stored password is never overwritten; the new user gets the password and an empty permission entry; one record line is appended; nothing else changes |
| Registry.RegisterDevice | IoTServer.java:132-153 | succeeds iff the device is not yet in the domain; a refusal changes nothing |
| Registry.RegisterDeviceEffect | IoTServer.java:132-153 | the device joins the domain, created if missing; its temperature and image are reset to null; one record line is appended; no other key changes |
| Registry.RegisterDeviceTracksDevices | IoTServer.java:140-142 | the telemetry maps keep exactly one entry per registered device |
| Registry.RegisterDeviceIdempotent | IoTServer.java:136-139 | repeating a registration, by any user, fails and changes nothing |
| Registry.AddDomainPermission | IoTServer.java:155-161 | false for an unknown domain; throws iff the domain has no permission entry; otherwise true iff the user was newly added, with only that domain's entry changed |
| Registry.AddDomainPermissionIdempotent | IoTServer.java:155-161 | afterwards the user holds the permission, and granting again reports false and changes nothing |
| Registry.HasDomainPermission | IoTServer.java:163-170 | false for an unknown domain; throws iff the domain has no permission entry; true iff the user is in the domain's set |
| Registry.UserNamedAfterDomainRevokesIt | IoTServer.java:114-119 | a new user named after a domain empties that domain's permission set, so nobody is permitted on it |
| Registry.RegisterTemperatureData | IoTServer.java:193-199 | succeeds iff the device has a telemetry entry; only that entry is overwritten |
| Registry.TemperatureLastWriteWins | IoTServer.java:193-199 | two writes leave the same state as the second alone |
| Registry.RegisterImageData | IoTServer.java:201-207 | succeeds iff the device has an image entry; only that entry is overwritten |
| Registry.ImageLastWriteWins | IoTServer.java:201-207 | two writes leave the same state as the second alone |
| Persistence.ParseRecord | IoTServer.java:52-53 | a line parses iff its split has at least two fields, and both fields are comma-free |
| Registry.RecordFields | IoTServer.java:122-124 | a record is the first field, one comma, then the second field; a comma-free first field ends at the record's first comma |
| Persistence.RecordRoundTrip | IoTServer.java:122-124 | a record written from comma-free fields with a non-empty second field parses back to the same pair |
| Persistence.CommaInFieldIsTruncated | IoTServer.java:52-53 | for a comma-free first field and a second field with a comma followed later by a non-comma, the record reads back with the second field cut at its first comma |
| Persistence.CommaOnlyPasswordBreaksRestart | IoTServer.java:51-56 | registering a comma-free user id with a password that is empty or made only of commas makes the next start-up load throw |
| Persistence.ReplayUsers | IoTServer.java:49-55 | the users file loads iff every line has two fields |
| Persistence.ReplayDevices | IoTServer.java:70-82 | the devices file loads iff every line has two fields |
| Persistence.ReplayDevicesMembership | IoTServer.java:70-82 | after replay, a device is in a domain iff some line records that pair |
| Persistence.Load | IoTServer.java:32-93 | loading succeeds iff both files parse; the users and domains are the replays of the two files; every user gets an empty permission entry and nothing else has one; every logged device gets null temperature and image |
| Persistence.LoadNothing | IoTServer.java:59-92 | with both files empty, the server starts with an empty registry |
| Persistence.Restart | IoTServer.java:46-92 | restarting from files that are in step gives back the same users and domain membership |
| Persistence.RegisterUserPersists | IoTServer.java:118-124 | registering a user keeps the users file in step; a new user needs comma-free fields and a non-empty password, a refused one needs nothing |
| Persistence.RegisterDevicePersists | IoTServer.java:140-147 | registering a device keeps the devices file in step; a new membership needs comma-free ids and a non-empty domain, an existing one needs nothing |
| Connection.Login | IoTServer.java:224-235 | OK-USER iff the stored password matches; OK-NEW-USER iff the user is new, which adds the user and an empty permission entry; otherwise WRONG-PWD; only OK-NEW-USER changes the state |
| Connection.BindDevice | IoTServer.java:237-244 | an accepted id was offered and was not in "default"; with no id accepted nothing changes; users and permissions never change |
| Connection.BindDeviceRejectsAll | IoTServer.java:237-244 | when no id is accepted, every offered id was already in "default" and every reply was NOK-DEVID |
| Connection.BindDeviceOutcome | IoTServer.java:237-244 | with k NOK-DEVID replies, the accepted id is candidates[k], the first one not in "default", and the state is that of registering it |
| Connection.BindDeviceRegisters | IoTServer.java:239-244 | an accepted id is in "default" afterwards and the last reply is OK-DEVID |
| Connection.BindDeviceAcceptsFirstFree | IoTServer.java:237-244 | if candidates[k] is the first id not in "default", the loop accepts it after k refusals |
| Connection.ScanAllowList | IoTServer.java:252-258 | found implies listed; not found implies not listed; a throw needs a line without fields or a matching name with an unusable size; a well-formed list never throws |
| Connection.IntegrityVerdict | IoTServer.java:246-263 | OK-TESTED only when the name and size are listed; NOK-TESTED when the list is unreadable; on a well-formed list, OK-TESTED iff listed |
| Connection.ScanAllowListOrder | IoTServer.java:252-258 | the scan reads lines in order and stops at the first match: a listed entry before any throwing line is found, and a throwing line before any match throws |
| Connection.IntegrityVerdictOrder | IoTServer.java:246-263 | OK-TESTED when the listed entry comes before any line that throws; a throw when such a line comes before any match |
| Connection.Handshake | IoTServer.java:224-263 | the first reply is the login reply; an opened session acts as the given user with one of the offered ids |
| Connection.HandshakeOpensSession | IoTServer.java:224-263 | a session opens iff some offered id is not yet in "default" and the allow-list scan does not throw, whatever the login reply and the verdict |
| Connection.HandshakeSessionIsFirstFree | IoTServer.java:237-263 | when the scan does not throw, the session is the given user with the first offered id not yet in "default", and the last reply is the verdict |
| Connection.HandshakeKeepsPasswords | IoTServer.java:227-235 | a handshake adds at most the connecting user and never changes a stored password |
| Connection.HandshakeBindsDevice | IoTServer.java:237-263 | an opened session's device was not in "default" before and is afterwards; the last two replies are OK-DEVID and the verdict |
| Connection.WrongPasswordStillOpensSession | IoTServer.java:227-265 | after a WRONG-PWD first reply, a session still opens for that user id with the first free id, whichever verdict is sent |
| Commands.Create | IoTServer.java:271-285 | Invalid iff the argument count is not 2; exists iff the domain is known, with no change; otherwise the domain is added empty, with permission set {caller} |
| Commands.CreateTwice | IoTServer.java:271-285 | a second CREATE of the same domain, by anyone, answers that it exists and changes nothing |
| Commands.Add | IoTServer.java:286-306 | a token count other than three answers Invalid command with no change; with three, throws iff the caller's permission check throws; anything but a new grant leaves the state unchanged |
| Commands.AddOutcome | IoTServer.java:286-306 | the four replies hold exactly under the conditions checked in order (caller permitted, user exists, not yet permitted); a grant adds only that user to that domain |
| Commands.AddTwice | IoTServer.java:286-306 | once granted, the same ADD answers "already has permission" and changes nothing |
| Commands.RegisterInDomain | IoTServer.java:307-322 | a token count other than two answers Invalid command with no change; with two, throws iff the permission check throws; anything but a registration leaves the state unchanged |
| Commands.RegisterInDomainOutcome | IoTServer.java:307-322 | registers iff the caller is permitted and the session's device is not in the domain; the only new membership is the session's own device |
| Commands.SendTemperature | IoTServer.java:323-334 | a token count other than two answers Invalid command with no change; with two, throws iff the value does not parse; only a registration changes the state |
| Commands.SendTemperatureOutcome | IoTServer.java:323-334 | registered iff the session's device has a telemetry entry, and only that entry is overwritten |
| Commands.SendImage | IoTServer.java:335-346 | never throws; a token count other than two answers Invalid command with no change; only a registration changes the state |
| Commands.SendImageOutcome | IoTServer.java:335-346 | registered iff the session's device has an image entry, and only that entry is overwritten |
| Commands.ReadTemperatures | IoTServer.java:347-356 | a token count other than two answers Invalid command; with two, throws iff the permission check throws; never changes the state; a granted read is of the named domain |
| Commands.ReadTemperaturesOutcome | IoTServer.java:347-356 | the read is granted iff the caller is permitted on the domain |
| Commands.ReadImage | IoTServer.java:379-391 | a token count other than two answers Invalid command rather than throwing; never changes the state; a grant needs the caller permitted on "default" |
| Commands.ReadImageOutcome | IoTServer.java:379-391 | throws iff the argument has no two ':' fields or "default" has no permission entry; otherwise grants the named device iff both users are permitted on "default" |
| Commands.VerbOf | IoTServer.java:270 | a recognised verb is selected only by its exact keyword |
| Commands.VerbOfKeyword | IoTServer.java:270-407 | every keyword selects its own verb |
| Commands.Command | IoTServer.java:270-410 | no tokens throws; an unrecognised first token answers Invalid command with no change |
| Commands.CommandArity | IoTServer.java:270-383 | for every recognised verb, a token count other than its own (three for ADD, two for the rest) answers Invalid command with no change, before any gate, parse or image read |
| Commands.Step | IoTServer.java:266-267 | a non-empty line of spaces only throws |
| Commands.RunSteps | IoTServer.java:265-413 | one reply per input until an input throws, none for the one that throws; a run without a throw replies to every input |
| Commands.RunStepsStopsAtThrow | IoTServer.java:265-413 | an aborted run stopped right after its last reply, at an input that throws from the final state |
| Commands.RunStepsAppend | IoTServer.java:265-413 | running a then b equals running b from the state a leaves, with the replies concatenated; if a throws, b is never read |
| Commands.Run | IoTServer.java:265-413 | a session's loop: as many replies as commands without a throw, and fewer with one |
| Commands.RunStopsAtThrow | IoTServer.java:265-413 | a session's loop ends at the first command line whose step throws, from the final registry |
| Commands.RunAppend | IoTServer.java:265-413 | a session's loop over a then b continues from where a left off, unless a command of a threw |
| Invariants.LoadDefaultUnowned | IoTServer.java:46-55 | after loading, nobody holds permission on "default" |
| Invariants.LoadedDomainGateThrows | IoTServer.java:46-82 | after loading, a domain that is not also a user id has no permission entry, so every permission check on it throws |
| Invariants.RestartLosesDomainPermissions | IoTServer.java:46-82 | after a restart from files in step, a domain that held a device and is not a user id has lost its permission entry |
| Invariants.HandshakeKeepsDefaultUnowned | IoTServer.java:224-244 | a handshake gives nobody permission on "default", and an opened session finds "default" in place |
| Invariants.CommandKeepsSessionReady | IoTServer.java:271-306 | no command gives anybody permission on "default" |
| Invariants.CommandNeverReadsImage | IoTServer.java:379-391 | in a session-ready state no command replies with an image |
| Invariants.RunNeverReadsImages | IoTServer.java:265-413 | over any sequence of commands no reply is an image, and the state stays session-ready |
| Invariants.CommandFrameHolds | IoTServer.java:265-412 | a command never changes users or the users file; domains only gain members, and only the session's device can join |
| Invariants.NonRegisteringCommandFrame | IoTServer.java:265-412 | every command other than RD leaves users, both files and domain membership as they were |
| Invariants.CommandTracksDevices | IoTServer.java:265-412 | commands keep one telemetry entry per registered device |
| Invariants.HandshakeTracksDevices | IoTServer.java:237-244 | a handshake keeps one telemetry entry per registered device |
| Invariants.BoundDeviceAcceptsTemperature | IoTServer.java:323-334 | a device bound into "default" always has its parsable temperature registered |
| Invariants.LoginPersists | IoTServer.java:227-235 | a login keeps the files in step; only a new user needs comma-free fields and a non-empty password |
| Invariants.BindDevicePersists | IoTServer.java:237-244 | binding keeps the files in step when the offered ids not yet in "default" are comma-free |
| Invariants.HandshakePersists | IoTServer.java:224-263 | a whole handshake keeps the files in step, given the login and binding conditions above |
| Invariants.RegisterInDomainPersists | IoTServer.java:307-322 | RD from a comma-free line appends a record that reads back as the membership it adds |
| Invariants.NonRegisteringCommandPersists | IoTServer.java:265-412 | every command other than RD keeps the files in step |
| Invariants.StepPersists | IoTServer.java:265-412 | every command keeps the files in step with the users and domain membership; an RD line and the device id must be comma-free |

## Left out

- Sockets, object-stream framing, the accept loop and the thread per client
  (`IoTServer.java:95-107`, `IoTServer.java:209-223`). A connection is the
  sequence of values it reads, passed in as parameters.
- `synchronized` and interleavings. Each registry operation is atomic in the
  model. The unsynchronised map access in CREATE and ADD is not modelled.
  The invariant lemmas are stated per step, so they hold for any
  interleaving of whole steps.
- Registry.HasDomainPermission: does not model the fallback that scans
  `data/users.txt` for domain names in fields after the password
  (`IoTServer.java:172-188`). Where the code would scan the file, the model
  answers false. With the fallback, a user whose password contains
  `,<domain>` would gain that domain, so `Invariants.RunNeverReadsImages` is
  a statement about the in-memory permission check only.
- Persistence.RegisterUserPersists: when the user is new, holds only for
  comma-free fields and a non-empty password. Outside that, the users file
  and the users map disagree (`Persistence.CommaInFieldIsTruncated`,
  `Persistence.CommaOnlyPasswordBreaksRestart`). A refused registration keeps
  the files in step whatever the fields.
- Persistence.RegisterDevicePersists: when the membership is new, holds
  only for comma-free ids and a non-empty domain name, for the same reason.
  An existing membership keeps the files in step whatever the fields.
- Invariants.LoginPersists: when the user is new, holds only for a
  comma-free user id and a comma-free, non-empty password, as for
  `RegisterUserPersists`. The login of an existing user keeps the files in
  step whatever the password.
- Invariants.HandshakePersists: when the user is new, holds only for
  comma-free fields and a non-empty password; and it holds only when every
  offered device id not yet in `"default"` is comma-free. Both follow from
  `RegisterUserPersists` and `RegisterDevicePersists`.
- Invariants.StepPersists: for an RD line, holds only when the line and the
  session's device id are comma-free, as for `RegisterDevicePersists`.
  Every other command keeps the files in step whatever its line.
- RT's temperature-file read and formatting (`IoTServer.java:358-376`) and
  RI's image-file read (`IoTServer.java:393-404`). A granted read is the
  reply `TemperatureReport(domain)` or `ImageReport(device)`. Nothing in
  the server writes `data/temperature_<domain>.txt` or
  `data/image_<device>.jpg`: the only file writes are the two record
  appends (lines 122 and 145). So, unless those files are made by hand, a
  granted RT answers "No temperature data available for this domain", a
  granted RI answers "No image data available for this device", and values
  sent by ET and EI are never read back. When an image file does exist, a
  granted RI sends its bytes and then the empty response string (lines 397
  and 412); `ImageReport` stands for both.
- Reading and splitting the allow-list file `teste.txt`. It is a parameter
  of already-split records: `None` when the file cannot be read, `NoFields`
  for a line made only of commas, and a size of `None` when the field is
  missing or `Integer.parseInt` would throw.
- `Float.parseFloat` and float rounding. Temperatures are `real`s, and the
  parser is a function parameter that returns `None` where Java throws.
  A `real` cannot hold the NaN or infinite values that `Float.parseFloat`
  accepts (`"NaN"`, `"Infinity"`, or a literal out of float range), so the
  model does not say what ET stores for those inputs.
- File and directory creation, and I/O errors while reading or appending
  (`IoTServer.java:40-44`, `56-65`, `83-91`, `125-127`, `148-150`). Appends
  always succeed in the model, and a load either reads every line or throws.
- Line breaks inside user ids, passwords, device ids or domain names. The
  model appends each record as one line. A field holding a line break would
  become two lines in the real file.
- Class-cast failures on the values read from the stream, and null strings.
- A client that closes after an `EI <device>` line. Each command input pairs
  the line with the image read after it, so the model always has an image
  to store. In the code, `readObject` (`IoTServer.java:340`) then throws,
  the handler ends and no reply is sent, while the model answers that the
  image was registered.
- The client going away mid-handshake. It is modelled only for the binding
  loop: the client stops offering ids and no session opens.
- `IoTDevice.java`, the interactive client.

=== FILE: commands.dfy ===
/** The command loop (IoTServer.java:265-412): each line is split at single
    spaces and dispatched on its first token. Every command answers with one
    reply; a runtime exception (an empty split, a missing permission entry,
    an unparsable temperature, a malformed RI argument) ends the client
    thread, which the model reports as `Aborted`. No command changes the
    registry before the point where it can abort, so an abort leaves the
    registry as it was. */
module Commands {
  import opened Outcomes
  import JavaStrings
  import opened Registry
  import opened Messages
  import opened Connection

  /** What a command sends back. The temperature and image file reads behind
      RT and RI are not modelled: a granted read is reported by what it
      would read. */
  datatype Reply =
    | Says(message: Message)
    | TemperatureReport(domain: DomainName)
    | ImageReport(device: DeviceId)

  /** The registry after a command and the reply sent for it. */
  datatype Response = Response(state: State, reply: Reply)

  /** `Float.parseFloat`: None where it throws. */
  type TemperatureParser = string -> Option<Temperature>

  /** u may act on domain d: d exists and its permission entry holds u. */
  predicate Permitted(s: State, u: UserId, d: DomainName)
  {
    d in s.domains && d in s.permissions && u in s.permissions[d]
  }

  /** The gate every domain command runs first: the domain exists but has no
      permission entry (it was created by RegisterDevice) exactly when the
      permission check throws. */
  predicate GateThrows(s: State, d: DomainName)
  {
    d in s.domains && d !in s.permissions
  }

  function Answer(s: State, m: Message): Outcome<Response>
  {
    Normal(Response(s, Says(m)))
  }

  /** Lines 271-285: a new domain has no devices and only its creator may act
      on it. The permission entry is written even when a user of that name
      already has one. */
  function Create(s: State, u: UserId, parts: seq<string>): (r: Outcome<Response>)
    ensures r.Normal?
    ensures r.value.reply == Says(InvalidCommand) <==> |parts| != 2
    ensures r.value.reply == Says(DomainExists) <==> |parts| == 2 && parts[1] in s.domains
    ensures r.value.reply == Says(DomainCreated) <==> |parts| == 2 && parts[1] !in s.domains
    ensures r.value.reply != Says(DomainCreated) ==> r.value.state == s
    ensures r.value.reply == Says(DomainCreated) ==>
              && Overwritten(s.domains, r.value.state.domains, parts[1], {})
              && Overwritten(s.permissions, r.value.state.permissions, parts[1], {u})
              && r.value.state.(domains := s.domains, permissions := s.permissions) == s
  {
    if |parts| != 2 then Answer(s, InvalidCommand)
    else
      var d := parts[1];
      if d in s.domains then Answer(s, DomainExists)
      else Answer(s.(domains := s.domains[d := {}], permissions := s.permissions[d := {u}]), DomainCreated)
  }

  /** Lines 286-306: the caller's permission on the domain is checked first,
      then that the user to add exists, then that it is not already
      permitted. */
  function Add(s: State, u: UserId, parts: seq<string>): (r: Outcome<Response>)
    ensures |parts| != 3 ==> r == Answer(s, InvalidCommand)
    ensures r.Aborted? <==> |parts| == 3 && GateThrows(s, parts[2])
    ensures r.Normal? ==> r.value.reply.Says?
    ensures r.Normal? && r.value.reply != Says(UserAdded) ==> r.value.state == s
  {
    if |parts| != 3 then Answer(s, InvalidCommand)
    else
      var target := parts[1];
      var d := parts[2];
      match HasDomainPermission(s, u, d)
      case Aborted => Aborted
      case Normal(allowed) =>
        if !allowed then Answer(s, NoAddPermission)
        else if target !in s.users then Answer(s, NoSuchUser)
        else
          match AddDomainPermission(s, target, d)
          case Aborted => Aborted
          case Normal(update) =>
            if update.ok then Answer(update.state, UserAdded) else Answer(s, AlreadyPermitted)
  }

  /** Lines 307-322: registers the session's own device in the named domain,
      after the permission gate. */
  function RegisterInDomain(s: State, session: Session, parts: seq<string>): (r: Outcome<Response>)
    ensures |parts| != 2 ==> r == Answer(s, InvalidCommand)
    ensures r.Aborted? <==> |parts| == 2 && GateThrows(s, parts[1])
    ensures r.Normal? ==> r.value.reply.Says?
    ensures r.Normal? && r.value.reply != Says(DeviceRegistered) ==> r.value.state == s
  {
    if |parts| != 2 then Answer(s, InvalidCommand)
    else
      var d := parts[1];
      match HasDomainPermission(s, session.user, d)
      case Aborted => Aborted
      case Normal(allowed) =>
        if !allowed then Answer(s, NoRegisterPermission)
        else
          var update := RegisterDevice(s, session.user, session.device, d);
          if update.ok then Answer(update.state, DeviceRegistered) else Answer(s, AlreadyRegistered)
  }

  /** Lines 323-334: records a temperature for the session's device. */
  function SendTemperature(s: State, session: Session, parts: seq<string>, parse: TemperatureParser): (r: Outcome<Response>)
    ensures |parts| != 2 ==> r == Answer(s, InvalidCommand)
    ensures r.Aborted? <==> |parts| == 2 && parse(parts[1]).None?
    ensures r.Normal? ==> r.value.reply.Says?
    ensures r.Normal? && r.value.reply != Says(TemperatureRegistered) ==> r.value.state == s
  {
    if |parts| != 2 then Answer(s, InvalidCommand)
    else
      match parse(parts[1])
      case None => Aborted
      case Some(t) =>
        var update := RegisterTemperatureData(s, session.device, t);
        if update.ok then Answer(update.state, TemperatureRegistered) else Answer(s, DeviceNotRegistered)
  }

  /** Lines 335-346: records the image that follows the command line for the
      session's device. */
  function SendImage(s: State, session: Session, parts: seq<string>, image: Image): (r: Outcome<Response>)
    ensures |parts| != 2 ==> r == Answer(s, InvalidCommand)
    ensures r.Normal?
    ensures r.value.reply.Says?
    ensures r.value.reply != Says(ImageRegistered) ==> r.value.state == s
  {
    if |parts| != 2 then Answer(s, InvalidCommand)
    else
      var update := RegisterImageData(s, session.device, image);
      if update.ok then Answer(update.state, ImageRegistered) else Answer(s, DeviceNotRegistered)
  }

  /** Lines 347-356: a temperature read of a domain is allowed to its
      permitted users. */
  function ReadTemperatures(s: State, session: Session, parts: seq<string>): (r: Outcome<Response>)
    ensures |parts| != 2 ==> r == Answer(s, InvalidCommand)
    ensures r.Aborted? <==> |parts| == 2 && GateThrows(s, parts[1])
    ensures r.Normal? ==> r.value.state == s
    ensures r.Normal? && r.value.reply.TemperatureReport? ==> |parts| == 2 && r.value.reply.domain == parts[1]
  {
    if |parts| != 2 then Answer(s, InvalidCommand)
    else
      var d := parts[1];
      match HasDomainPermission(s, session.user, d)
      case Aborted => Aborted
      case Normal(allowed) =>
        if !allowed then Answer(s, NoReadPermission) else Normal(Response(s, TemperatureReport(d)))
  }

  /** Lines 379-391: the argument is `user:device`; both the caller and the
      named user must hold permission on "default", checked in that order
      with short-circuit. A missing ':' or empty sides throw before the gate. */
  function ReadImage(s: State, session: Session, parts: seq<string>): (r: Outcome<Response>)
    ensures |parts| != 2 ==> r == Answer(s, InvalidCommand)
    ensures r.Normal? ==> r.value.state == s
    ensures r.Normal? && r.value.reply.ImageReport? ==>
              |parts| == 2 && Permitted(s, session.user, DefaultDomain)
  {
    if |parts| != 2 then Answer(s, InvalidCommand)
    else
      var target := JavaStrings.Split(parts[1], ':');
      if |target| < 2 then Aborted
      else
        match HasDomainPermission(s, session.user, DefaultDomain)
        case Aborted => Aborted
        case Normal(callerAllowed) =>
          if !callerAllowed then Answer(s, NoImagePermission)
          else
            match HasDomainPermission(s, target[0], DefaultDomain)
            case Aborted => Aborted
            case Normal(ownerAllowed) =>
              if !ownerAllowed then Answer(s, NoImagePermission)
              else Normal(Response(s, ImageReport(target[1])))
  }

  /** The verbs the loop recognises, and Other for any other first token. */
  datatype Verb = CreateVerb | AddVerb | RdVerb | EtVerb | EiVerb | RtVerb | RiVerb | Other

  /** The token that selects a recognised verb. */
  function Keyword(v: Verb): string
    requires v != Other
  {
    match v
    case CreateVerb => "CREATE"
    case AddVerb => "ADD"
    case RdVerb => "RD"
    case EtVerb => "ET"
    case EiVerb => "EI"
    case RtVerb => "RT"
    case RiVerb => "RI"
  }

  /** Line 270: the switch on the first token, which compares exactly. */
  function VerbOf(token: string): (v: Verb)
    ensures v != Other ==> Keyword(v) == token
  {
    match token
    case "CREATE" => CreateVerb
    case "ADD" => AddVerb
    case "RD" => RdVerb
    case "ET" => EtVerb
    case "EI" => EiVerb
    case "RT" => RtVerb
    case "RI" => RiVerb
    case _ => Other
  }

  /** Every keyword selects its own verb. */
  lemma VerbOfKeyword(v: Verb)
    requires v != Other
    ensures VerbOf(Keyword(v)) == v
  {
  }

  /** Lines 270-410: one command given as its tokens; no tokens means the
      first-token access throws. */
  function Command(s: State, session: Session, parts: seq<string>, image: Image, parse: TemperatureParser): (r: Outcome<Response>)
    ensures |parts| == 0 ==> r.Aborted?
    ensures |parts| > 0 && VerbOf(parts[0]) == Other ==> r == Normal(Response(s, Says(InvalidCommand)))
  {
    if |parts| == 0 then Aborted
    else
      match VerbOf(parts[0])
      case CreateVerb => Create(s, session.user, parts)
      case AddVerb => Add(s, session.user, parts)
      case RdVerb => RegisterInDomain(s, session, parts)
      case EtVerb => SendTemperature(s, session, parts, parse)
      case EiVerb => SendImage(s, session, parts, image)
      case RtVerb => ReadTemperatures(s, session, parts)
      case RiVerb => ReadImage(s, session, parts)
      case Other => Answer(s, InvalidCommand)
  }

  /** The token count each recognised verb demands: ADD takes a user and a
      domain, every other verb one argument. */
  function Arity(v: Verb): nat
  {
    if v == AddVerb then 3 else 2
  }

  /** Every recognised verb first checks its token count: a wrong count
      answers "Invalid command" and changes nothing, before any gate,
      parse or image read (lines 272, 287, 308, 324, 336, 348 and 380). */
  lemma CommandArity(s: State, session: Session, parts: seq<string>, image: Image, parse: TemperatureParser)
    requires |parts| > 0 && VerbOf(parts[0]) != Other && |parts| != Arity(VerbOf(parts[0]))
    ensures Command(s, session, parts, image, parse) == Normal(Response(s, Says(InvalidCommand)))
  {
  }

  /** Lines 266-267 and 412: one iteration of the loop splits the line at
      spaces and runs the command; a line made only of spaces splits to
      nothing. */
  function Step(s: State, session: Session, line: string, image: Image, parse: TemperatureParser): (r: Outcome<Response>)
    ensures (|line| > 0 && forall k :: 0 <= k < |line| ==> line[k] == ' ') ==> r.Aborted?
  {
    JavaStrings.SplitEmpty(line, ' ');
    Command(s, session, JavaStrings.Split(line, ' '), image, parse)
  }

  /** One command line and the image object that follows it on the stream
      (read only by a well-formed EI). */
  datatype Input = Input(line: string, image: Image)

  /** The loop over a session's input: the final registry, the replies sent
      and whether the thread ended on an exception. */
  datatype Trace = Trace(state: State, replies: seq<Reply>, aborted: bool)

  /** One loop iteration as a function of the registry and the input. */
  type Stepper = (State, Input) -> Outcome<Response>

  /** Lines 265-413 for any iteration: runs the inputs in order until one
      throws; one reply per input before that, none for the input that
      threw. */
  function RunSteps(step: Stepper, s: State, inputs: seq<Input>): (r: Trace)
    ensures |r.replies| <= |inputs|
    ensures !r.aborted ==> |r.replies| == |inputs|
    ensures r.aborted ==> |r.replies| < |inputs|
    decreases |inputs|
  {
    if |inputs| == 0 then Trace(s, [], false)
    else
      match step(s, inputs[0])
      case Aborted => Trace(s, [], true)
      case Normal(response) =>
        var rest := RunSteps(step, response.state, inputs[1..]);
        Trace(rest.state, [response.reply] + rest.replies, rest.aborted)
  }

  /** An aborted run stopped at the input right after its last reply: that
      input threw from the final state, which is the registry as the input
      found it. */
  lemma {:induction false} RunStepsStopsAtThrow(step: Stepper, s: State, inputs: seq<Input>)
    ensures var r := RunSteps(step, s, inputs);
            r.aborted ==> step(r.state, inputs[|r.replies|]).Aborted?
    decreases |inputs|
  {
    if |inputs| > 0 {
      match step(s, inputs[0])
      case Aborted =>
      case Normal(response) =>
        var tail := inputs[1..];
        RunStepsStopsAtThrow(step, response.state, tail);
        var rest := RunSteps(step, response.state, tail);
        if rest.aborted {
          assert inputs[|rest.replies| + 1] == tail[|rest.replies|];
        }
    }
  }

  /** Running a then b is running b from where a left off, unless a threw,
      in which case b is never read. */
  lemma {:induction false} RunStepsAppend(step: Stepper, s: State, a: seq<Input>, b: seq<Input>)
    ensures var ra := RunSteps(step, s, a);
            var rb := RunSteps(step, ra.state, b);
            RunSteps(step, s, a + b) ==
              if ra.aborted then ra else Trace(rb.state, ra.replies + rb.replies, rb.aborted)
    decreases |a|
  {
    if |a| > 0 {
      assert (a + b)[0] == a[0];
      assert (a + b)[1..] == a[1..] + b;
      match step(s, a[0])
      case Aborted =>
      case Normal(response) =>
        RunStepsAppend(step, response.state, a[1..], b);
        var ra := RunSteps(step, response.state, a[1..]);
        var rb := RunSteps(step, ra.state, b);
        assert [response.reply] + (ra.replies + rb.replies) == ([response.reply] + ra.replies) + rb.replies;
    } else {
      assert a + b == b;
    }
  }

  /** The loop of one session: each input is a command line, split and
      dispatched by Step. */
  function Run(s: State, session: Session, inputs: seq<Input>, parse: TemperatureParser): (r: Trace)
    ensures |r.replies| <= |inputs|
    ensures !r.aborted ==> |r.replies| == |inputs|
    ensures r.aborted ==> |r.replies| < |inputs|
  {
    RunSteps((t: State, input: Input) => Step(t, session, input.line, input.image, parse), s, inputs)
  }

  /** A session's loop stops at the first command that throws: the command
      right after the last reply threw from the final registry. */
  lemma RunStopsAtThrow(s: State, session: Session, inputs: seq<Input>, parse: TemperatureParser)
    ensures var r := Run(s, session, inputs, parse);
            r.aborted ==>
              var next := inputs[|r.replies|];
              Step(r.state, session, next.line, next.image, parse).Aborted?
  {
    RunStepsStopsAtThrow((t: State, input: Input) => Step(t, session, input.line, input.image, parse), s, inputs);
  }

  /** A session's loop over a then b continues from where a left off, unless
      a command of a threw. */
  lemma RunAppend(s: State, session: Session, a: seq<Input>, b: seq<Input>, parse: TemperatureParser)
    ensures var ra := Run(s, session, a, parse);
            var rb := Run(ra.state, session, b, parse);
            Run(s, session, a + b, parse) ==
              if ra.aborted then ra else Trace(rb.state, ra.replies + rb.replies, rb.aborted)
  {
    RunStepsAppend((t: State, input: Input) => Step(t, session, input.line, input.image, parse), s, a, b);
  }

  /** ADD in full: with the gate not throwing, the four replies partition
      the cases in the order the code checks them, and only a new grant
      changes the registry, by adding the user to that one domain's entry. */
  lemma AddOutcome(s: State, u: UserId, parts: seq<string>)
    requires |parts| == 3
    ensures var r := Add(s, u, parts);
            var target := parts[1];
            var d := parts[2];
            r.Normal? ==>
              && (r.value.reply == Says(NoAddPermission) <==> !Permitted(s, u, d))
              && (r.value.reply == Says(NoSuchUser) <==> Permitted(s, u, d) && target !in s.users)
              && (r.value.reply == Says(AlreadyPermitted) <==>
                    Permitted(s, u, d) && target in s.users && target in s.permissions[d])
              && (r.value.reply == Says(UserAdded) <==>
                    Permitted(s, u, d) && target in s.users && target !in s.permissions[d])
              && (r.value.reply == Says(UserAdded) ==>
                    && Overwritten(s.permissions, r.value.state.permissions, d, s.permissions[d] + {target})
                    && r.value.state.(permissions := s.permissions) == s)
  {
  }

  /** Granting twice: once a permitted caller's ADD of an existing user has
      gone through, repeating it answers that the user is already permitted
      and changes nothing. */
  lemma AddTwice(s: State, u: UserId, parts: seq<string>)
    requires |parts| == 3
    requires Permitted(s, u, parts[2]) && parts[1] in s.users
    ensures Add(s, u, parts).Normal?
    ensures var s1 := Add(s, u, parts).value.state;
            Add(s1, u, parts) == Answer(s1, AlreadyPermitted)
  {
    AddOutcome(s, u, parts);
  }

  /** CREATE twice: the second finds the domain and changes nothing. */
  lemma CreateTwice(s: State, u: UserId, v: UserId, d: DomainName)
    ensures var s1 := Create(s, u, ["CREATE", d]).value.state;
            Create(s1, v, ["CREATE", d]) == Answer(s1, DomainExists)
  {
  }

  /** RD in full: it succeeds exactly when the caller is permitted on the
      domain and the session's device is not yet in it, and then the only
      new membership is the session's own device in that domain. */
  lemma RegisterInDomainOutcome(s: State, session: Session, parts: seq<string>)
    requires |parts| == 2
    ensures var r := RegisterInDomain(s, session, parts);
            var d := parts[1];
            r.Normal? ==>
              && (r.value.reply == Says(NoRegisterPermission) <==> !Permitted(s, session.user, d))
              && (r.value.reply == Says(AlreadyRegistered) <==>
                    Permitted(s, session.user, d) && InDomain(s.domains, d, session.device))
              && (r.value.reply == Says(DeviceRegistered) <==>
                    Permitted(s, session.user, d) && !InDomain(s.domains, d, session.device))
              && (r.value.reply == Says(DeviceRegistered) ==>
                    && r.value.state == RegisterDevice(s, session.user, session.device, d).state
                    && forall e, x :: InDomain(r.value.state.domains, e, x) <==>
                                        InDomain(s.domains, e, x) || (e == d && x == session.device))
  {
    var d := parts[1];
    if Permitted(s, session.user, d) && !InDomain(s.domains, d, session.device) {
      RegisterDeviceEffect(s, session.user, session.device, d);
    }
  }

  /** ET in full: a parsed temperature is stored for the session's device
      when that device has telemetry, and nowhere else. */
  lemma SendTemperatureOutcome(s: State, session: Session, parts: seq<string>, parse: TemperatureParser)
    requires |parts| == 2
    ensures var r := SendTemperature(s, session, parts, parse);
            r.Normal? ==>
              && (r.value.reply == Says(TemperatureRegistered) <==> session.device in s.temperatures)
              && (r.value.reply == Says(DeviceNotRegistered) <==> session.device !in s.temperatures)
              && (r.value.reply == Says(TemperatureRegistered) ==>
                    && Overwritten(s.temperatures, r.value.state.temperatures, session.device, parse(parts[1]))
                    && r.value.state.(temperatures := s.temperatures) == s)
  {
  }

  /** EI in full: the image is stored for the session's device when that
      device has telemetry, and nowhere else. */
  lemma SendImageOutcome(s: State, session: Session, parts: seq<string>, image: Image)
    requires |parts| == 2
    ensures var r := SendImage(s, session, parts, image).value;
            && (r.reply == Says(ImageRegistered) <==> session.device in s.images)
            && (r.reply == Says(DeviceNotRegistered) <==> session.device !in s.images)
            && (r.reply == Says(ImageRegistered) ==>
                  && Overwritten(s.images, r.state.images, session.device, Some(image))
                  && r.state.(images := s.images) == s)
  {
  }

  /** RT in full: the read is granted exactly to the domain's permitted
      users. */
  lemma ReadTemperaturesOutcome(s: State, session: Session, parts: seq<string>)
    requires |parts| == 2
    ensures var r := ReadTemperatures(s, session, parts);
            r.Normal? ==>
              (r.value.reply == TemperatureReport(parts[1]) <==> Permitted(s, session.user, parts[1]))
              && (r.value.reply == Says(NoReadPermission) <==> !Permitted(s, session.user, parts[1]))
  {
  }

  /** RI in full: it throws when the argument has no `user:device` form or
      "default" has no permission entry; otherwise the image is granted
      exactly when both the caller and the named user are permitted on
      "default". */
  lemma ReadImageOutcome(s: State, session: Session, parts: seq<string>)
    requires |parts| == 2
    ensures var r := ReadImage(s, session, parts);
            var target := JavaStrings.Split(parts[1], ':');
            && (r.Aborted? <==> |target| < 2 || GateThrows(s, DefaultDomain))
            && (r.Normal? ==>
                  (r.value.reply.ImageReport? <==>
                     Permitted(s, session.user, DefaultDomain) && Permitted(s, target[0], DefaultDomain))
                  && (r.value.reply.ImageReport? ==> r.value.reply == ImageReport(target[1]))
                  && (!r.value.reply.ImageReport? ==> r.value.reply == Says(NoImagePermission)))
  {
  }
}

=== FILE: connection.dfy ===
/** The opening of a client connection (IoTServer.java:224-263): login,
    device-id binding into the "default" domain, and the program integrity
    decision. None of the three closes the connection on a failed outcome:
    the session goes on to the command loop with the user id it was given. */
module Connection {
  import opened Outcomes
  import opened Registry
  import opened Messages

  /** The identity a connection acts under in the command loop. */
  datatype Session = Session(user: UserId, device: DeviceId)

  /** A new registry state and the one reply sent for it. */
  datatype Exchange = Exchange(state: State, reply: Message)

  /** Lines 224-235: authenticate, else try to register the user. */
  function Login(s: State, u: UserId, password: string): (r: Exchange)
    ensures r.reply == OkUser <==> u in s.users && s.users[u] == password
    ensures r.reply == OkNewUser <==> u !in s.users
    ensures r.reply == WrongPwd <==> u in s.users && s.users[u] != password
    ensures r.reply != OkNewUser ==> r.state == s
    ensures r.reply == OkNewUser ==>
              && r.state.users == s.users[u := password]
              && Overwritten(s.permissions, r.state.permissions, u, {})
              && r.state.userLines == s.userLines + [Record(u, password)]
    ensures r.state.(users := s.users, permissions := s.permissions, userLines := s.userLines) == s
  {
    if Authenticate(s, u, password) then Exchange(s, OkUser)
    else
      var registered := RegisterUser(s, u, password);
      if registered.ok then Exchange(registered.state, OkNewUser) else Exchange(s, WrongPwd)
  }

  /** n copies of x. */
  function Repeat(x: Message, n: nat): (r: seq<Message>)
    ensures |r| == n
    ensures forall i :: 0 <= i < n ==> r[i] == x
  {
    if n == 0 then [] else [x] + Repeat(x, n - 1)
  }

  /** The outcome of the binding loop: the state, the replies sent, and the
      device id accepted (None when the client stopped sending ids). */
  datatype Binding = Binding(state: State, replies: seq<Message>, device: Option<DeviceId>)

  /** Lines 237-244: each offered id is registered in the "default" domain;
      one already there is answered NOK-DEVID and the next is read, the first
      free one is answered OK-DEVID. */
  function BindDevice(s: State, u: UserId, candidates: seq<DeviceId>): (r: Binding)
    ensures r.device.None? ==> r.state == s
    ensures r.device.Some? ==> r.device.value in candidates && r.device.value !in Members(s.domains, DefaultDomain)
    ensures r.state.users == s.users && r.state.permissions == s.permissions
    decreases |candidates|
  {
    if |candidates| == 0 then Binding(s, [], None)
    else
      var attempt := RegisterDevice(s, u, candidates[0], DefaultDomain);
      if attempt.ok then Binding(attempt.state, [OkDevId], Some(candidates[0]))
      else
        var rest := BindDevice(s, u, candidates[1..]);
        Binding(rest.state, [NokDevId] + rest.replies, rest.device)
  }

  /** When the binding loop accepts no id, every offered id was already in
      "default", every reply was NOK-DEVID and nothing changed. */
  lemma {:induction false} BindDeviceRejectsAll(s: State, u: UserId, candidates: seq<DeviceId>)
    ensures var r := BindDevice(s, u, candidates);
            r.device.None? ==>
              && r.replies == Repeat(NokDevId, |candidates|)
              && forall i :: 0 <= i < |candidates| ==> candidates[i] in Members(s.domains, DefaultDomain)
    decreases |candidates|
  {
    if |candidates| > 0 && InDomain(s.domains, DefaultDomain, candidates[0]) {
      var tail := candidates[1..];
      BindDeviceRejectsAll(s, u, tail);
      var rest := BindDevice(s, u, tail);
      if rest.device.None? {
        assert forall j :: 1 <= j < |candidates| ==> candidates[j] == tail[j - 1];
        assert Repeat(NokDevId, |candidates|) == [NokDevId] + Repeat(NokDevId, |tail|);
      }
    }
  }

  /** When the binding loop accepts an id: with k the number of NOK-DEVID
      replies, it accepted candidates[k], the first offered id not yet in
      "default", and the state is that of registering it there. */
  lemma {:induction false} BindDeviceOutcome(s: State, u: UserId, candidates: seq<DeviceId>)
    ensures var r := BindDevice(s, u, candidates);
            r.device.Some? ==>
              var k := |r.replies| - 1;
              && 0 <= k < |candidates|
              && r.device.value == candidates[k]
              && (forall j :: 0 <= j < k ==> candidates[j] in Members(s.domains, DefaultDomain))
              && r.replies == Repeat(NokDevId, k) + [OkDevId]
              && r.state == RegisterDevice(s, u, candidates[k], DefaultDomain).state
    decreases |candidates|
  {
    if |candidates| > 0 && InDomain(s.domains, DefaultDomain, candidates[0]) {
      var tail := candidates[1..];
      BindDeviceOutcome(s, u, tail);
      var rest := BindDevice(s, u, tail);
      if rest.device.Some? {
        var r := BindDevice(s, u, candidates);
        var k := |rest.replies| - 1;
        assert r.replies == [NokDevId] + rest.replies;
        assert forall j :: 1 <= j < |candidates| ==> candidates[j] == tail[j - 1];
        assert Repeat(NokDevId, k + 1) == [NokDevId] + Repeat(NokDevId, k);
        assert r.replies == Repeat(NokDevId, k + 1) + [OkDevId];
      }
    }
  }

  /** An accepted id is in "default" afterwards and the last reply sent was
      OK-DEVID. */
  lemma {:induction false} BindDeviceRegisters(s: State, u: UserId, candidates: seq<DeviceId>)
    ensures var r := BindDevice(s, u, candidates);
            r.device.Some? ==>
              && |r.replies| >= 1
              && r.replies[|r.replies| - 1] == OkDevId
              && r.device.value in Members(r.state.domains, DefaultDomain)
    decreases |candidates|
  {
    if |candidates| > 0 {
      if InDomain(s.domains, DefaultDomain, candidates[0]) {
        BindDeviceRegisters(s, u, candidates[1..]);
      } else {
        var m := AddMember(s.domains, DefaultDomain, candidates[0]);
        assert InDomain(m, DefaultDomain, candidates[0]);
      }
    }
  }

  /** The binding loop accepts an offered id exactly when some offered id is
      not yet in "default", and the accepted one is the first such. */
  lemma BindDeviceAcceptsFirstFree(s: State, u: UserId, candidates: seq<DeviceId>, k: nat)
    requires k < |candidates|
    requires candidates[k] !in Members(s.domains, DefaultDomain)
    requires forall j :: 0 <= j < k ==> candidates[j] in Members(s.domains, DefaultDomain)
    ensures BindDevice(s, u, candidates).device == Some(candidates[k])
    ensures |BindDevice(s, u, candidates).replies| == k + 1
  {
    BindDeviceRejectsAll(s, u, candidates);
    BindDeviceOutcome(s, u, candidates);
  }

  /** One line of the allow-list file teste.txt, split at commas: either no
      field at all (a line made only of commas, whose first-field access
      throws), or a program name and its size, `None` when the size field is
      missing or not an integer, which makes the array access or
      `Integer.parseInt` throw. */
  datatype AllowEntry = NoFields | Entry(name: string, size: Option<int>)

  ghost predicate Listed(entries: seq<AllowEntry>, name: string, size: int)
  {
    exists i :: 0 <= i < |entries| && entries[i] == Entry(name, Some(size))
  }

  ghost predicate WellFormedList(entries: seq<AllowEntry>)
  {
    forall i :: 0 <= i < |entries| ==> entries[i].Entry? && entries[i].size.Some?
  }

  /** Lines 252-258: the scan stops at the first record with the program's
      name and size; the size of a record is only read when its name
      matches, but a line without fields throws whatever the name. */
  function ScanAllowList(entries: seq<AllowEntry>, name: string, size: int): (r: Outcome<bool>)
    ensures r == Normal(true) ==> Listed(entries, name, size)
    ensures r == Normal(false) ==> !Listed(entries, name, size)
    ensures r.Aborted? ==> exists i :: 0 <= i < |entries| && (entries[i].NoFields? || entries[i] == Entry(name, None))
    ensures WellFormedList(entries) ==> r.Normal?
    decreases |entries|
  {
    if |entries| == 0 then Normal(false)
    else
      assert forall i :: 1 <= i < |entries| ==> entries[i] == entries[1..][i - 1];
      match entries[0]
      case NoFields => Aborted
      case Entry(first, recorded) =>
        if first != name then ScanAllowList(entries[1..], name, size)
        else match recorded
          case None => Aborted
          case Some(n) => if n == size then Normal(true) else ScanAllowList(entries[1..], name, size)
  }

  /** A line the scan throws on when it reaches it: one without fields, or
      one with the program's name and an unusable size. */
  predicate Malformed(e: AllowEntry, name: string)
  {
    e.NoFields? || e == Entry(name, None)
  }

  /** Line i is the program's listed entry, and no line before it throws. */
  ghost predicate MatchFirst(entries: seq<AllowEntry>, name: string, size: int, i: int)
  {
    && 0 <= i < |entries|
    && entries[i] == Entry(name, Some(size))
    && forall j :: 0 <= j < i ==> !Malformed(entries[j], name)
  }

  /** Line i throws, and no line before it matches or throws. */
  ghost predicate ThrowFirst(entries: seq<AllowEntry>, name: string, size: int, i: int)
  {
    && 0 <= i < |entries|
    && Malformed(entries[i], name)
    && forall j :: 0 <= j < i ==> entries[j] != Entry(name, Some(size)) && !Malformed(entries[j], name)
  }

  /** The scan reads the lines in order (the short-circuit at line 254 and
      the break at line 256): a listed entry before any throwing line is
      found whatever follows it, and a throwing line before any match
      throws. */
  lemma {:induction false} ScanAllowListOrder(entries: seq<AllowEntry>, name: string, size: int, i: int)
    ensures MatchFirst(entries, name, size, i) ==> ScanAllowList(entries, name, size) == Normal(true)
    ensures ThrowFirst(entries, name, size, i) ==> ScanAllowList(entries, name, size).Aborted?
    decreases if i < 0 then 0 else i
  {
    if 0 < i < |entries| && !Malformed(entries[0], name) && entries[0] != Entry(name, Some(size)) {
      var tail := entries[1..];
      assert forall j :: 0 <= j < i - 1 ==> tail[j] == entries[j + 1];
      assert tail[i - 1] == entries[i];
      ScanAllowListOrder(tail, name, size, i - 1);
      if MatchFirst(entries, name, size, i) {
        assert MatchFirst(tail, name, size, i - 1);
      }
      if ThrowFirst(entries, name, size, i) {
        assert ThrowFirst(tail, name, size, i - 1);
      }
    }
  }

  /** Lines 246-263: OK-TESTED when the program's name and size are listed,
      NOK-TESTED otherwise, including when the list cannot be read (None). */
  function IntegrityVerdict(allowList: Option<seq<AllowEntry>>, name: string, size: int): (r: Outcome<Message>)
    ensures allowList.None? ==> r == Normal(NokTested)
    ensures r == Normal(OkTested) ==> allowList.Some? && Listed(allowList.value, name, size)
    ensures r.Normal? ==> r.value == OkTested || r.value == NokTested
    ensures allowList.Some? && WellFormedList(allowList.value) ==>
              r == Normal(if Listed(allowList.value, name, size) then OkTested else NokTested)
  {
    match allowList
    case None => Normal(NokTested)
    case Some(entries) =>
      match ScanAllowList(entries, name, size)
      case Aborted => Aborted
      case Normal(found) => Normal(if found then OkTested else NokTested)
  }

  /** The verdict follows the scan's order: OK-TESTED when the listed entry
      comes before any throwing line, a throw when a throwing line comes
      before any match. */
  lemma IntegrityVerdictOrder(entries: seq<AllowEntry>, name: string, size: int, i: int)
    ensures MatchFirst(entries, name, size, i) ==> IntegrityVerdict(Some(entries), name, size) == Normal(OkTested)
    ensures ThrowFirst(entries, name, size, i) ==> IntegrityVerdict(Some(entries), name, size).Aborted?
  {
    ScanAllowListOrder(entries, name, size, i);
  }

  /** The end of the handshake: the state, the replies sent, and the session
      that enters the command loop (None when the connection ended). */
  datatype Opening = Opening(state: State, replies: seq<Message>, session: Option<Session>)

  /** Lines 224-263 in order. The session, if any, acts as u whatever the
      login reply was. */
  function Handshake(s: State, u: UserId, password: string, candidates: seq<DeviceId>,
                     programName: string, programSize: int,
                     allowList: Option<seq<AllowEntry>>): (r: Opening)
    ensures |r.replies| >= 1 && r.replies[0] == Login(s, u, password).reply
    ensures r.session.Some? ==> r.session.value.user == u && r.session.value.device in candidates
  {
    var login := Login(s, u, password);
    var binding := BindDevice(login.state, u, candidates);
    var replies := [login.reply] + binding.replies;
    match binding.device
    case None => Opening(binding.state, replies, None)
    case Some(dev) =>
      match IntegrityVerdict(allowList, programName, programSize)
      case Aborted => Opening(binding.state, replies, None)
      case Normal(verdict) => Opening(binding.state, replies + [verdict], Some(Session(u, dev)))
  }

  /** The handshake never changes a stored password; it adds at most the
      connecting user. */
  lemma HandshakeKeepsPasswords(s: State, u: UserId, password: string, candidates: seq<DeviceId>,
                                programName: string, programSize: int,
                                allowList: Option<seq<AllowEntry>>)
    ensures var r := Handshake(s, u, password, candidates, programName, programSize, allowList);
            && r.state.users.Keys == s.users.Keys + {u}
            && forall v :: v in s.users ==> r.state.users[v] == s.users[v]
  {
    RegisterUserEffect(s, u, password);
  }

  /** A session that reaches the command loop has its device in "default",
      where it was not before, and its last two replies were OK-DEVID and the
      integrity verdict. */
  lemma HandshakeBindsDevice(s: State, u: UserId, password: string, candidates: seq<DeviceId>,
                             programName: string, programSize: int,
                             allowList: Option<seq<AllowEntry>>)
    ensures var r := Handshake(s, u, password, candidates, programName, programSize, allowList);
            r.session.Some? ==>
              && |r.replies| >= 3
              && r.session.value.device in Members(r.state.domains, DefaultDomain)
              && r.session.value.device !in Members(s.domains, DefaultDomain)
              && r.replies[|r.replies| - 2] == OkDevId
              && (r.replies[|r.replies| - 1] == OkTested || r.replies[|r.replies| - 1] == NokTested)
  {
    var login := Login(s, u, password);
    assert login.state.domains == s.domains;
    BindDeviceRegisters(login.state, u, candidates);
  }

  /** Some offered id is not yet in "default". */
  ghost predicate SomeFree(s: State, candidates: seq<DeviceId>)
  {
    exists k :: 0 <= k < |candidates| && candidates[k] !in Members(s.domains, DefaultDomain)
  }

  /** When a session opens: exactly when some offered id is free in
      "default" and the allow-list scan does not throw, whatever the login
      reply and whatever the verdict. */
  lemma HandshakeOpensSession(s: State, u: UserId, password: string, candidates: seq<DeviceId>,
                              programName: string, programSize: int,
                              allowList: Option<seq<AllowEntry>>)
    ensures var r := Handshake(s, u, password, candidates, programName, programSize, allowList);
            r.session.Some? <==> SomeFree(s, candidates) && IntegrityVerdict(allowList, programName, programSize).Normal?
  {
    var login := Login(s, u, password);
    assert login.state.domains == s.domains;
    var binding := BindDevice(login.state, u, candidates);
    BindDeviceRejectsAll(login.state, u, candidates);
    if binding.device.Some? {
      var k :| 0 <= k < |candidates| && candidates[k] == binding.device.value;
      assert candidates[k] !in Members(s.domains, DefaultDomain);
    }
  }

  /** The session that opens acts as u with the first offered id that is
      free in "default", whatever the login reply and the verdict. */
  lemma HandshakeSessionIsFirstFree(s: State, u: UserId, password: string, candidates: seq<DeviceId>,
                                    programName: string, programSize: int,
                                    allowList: Option<seq<AllowEntry>>, k: nat)
    requires k < |candidates| && candidates[k] !in Members(s.domains, DefaultDomain)
    requires forall j :: 0 <= j < k ==> candidates[j] in Members(s.domains, DefaultDomain)
    requires IntegrityVerdict(allowList, programName, programSize).Normal?
    ensures var r := Handshake(s, u, password, candidates, programName, programSize, allowList);
            && r.session == Some(Session(u, candidates[k]))
            && r.replies[|r.replies| - 1] == IntegrityVerdict(allowList, programName, programSize).value
  {
    var login := Login(s, u, password);
    assert login.state.domains == s.domains;
    BindDeviceAcceptsFirstFree(login.state, u, candidates, k);
  }

  /** A wrong password and a failed or passed integrity check do not end the
      connection: when some offered id is free, the session enters the
      command loop as user u with the first free id, the first reply being
      WRONG-PWD and the last the verdict. */
  lemma WrongPasswordStillOpensSession(s: State, u: UserId, password: string, candidates: seq<DeviceId>,
                                       programName: string, programSize: int,
                                       allowList: Option<seq<AllowEntry>>, k: nat)
    requires u in s.users && s.users[u] != password
    requires k < |candidates| && candidates[k] !in Members(s.domains, DefaultDomain)
    requires forall j :: 0 <= j < k ==> candidates[j] in Members(s.domains, DefaultDomain)
    requires IntegrityVerdict(allowList, programName, programSize).Normal?
    ensures var r := Handshake(s, u, password, candidates, programName, programSize, allowList);
            && r.replies[0] == WrongPwd
            && r.session == Some(Session(u, candidates[k]))
            && r.replies[|r.replies| - 1] == IntegrityVerdict(allowList, programName, programSize).value
  {
    HandshakeSessionIsFirstFree(s, u, password, candidates, programName, programSize, allowList, k);
  }
}

=== FILE: invariants.dfy ===
/** Facts about whole sessions: what a command step may change, the state
    properties that handshakes and commands preserve, and the consequence
    that the RI gate, as written, never grants an image read. */
module Invariants {
  import opened Outcomes
  import JavaStrings
  import opened Registry
  import opened Persistence
  import opened Messages
  import opened Connection
  import opened Commands

  /** Nobody holds permission on "default": either it has no entry, or the
      entry is the empty set a user named "default" was given. */
  predicate DefaultUnowned(s: State)
  {
    DefaultDomain in s.permissions ==> s.permissions[DefaultDomain] == {}
  }

  /** The state a session's command loop runs in: "default" exists (the
      handshake put the session's device there) and nobody owns it. */
  predicate SessionReady(s: State)
  {
    DefaultDomain in s.domains && DefaultUnowned(s)
  }

  /** A freshly loaded registry has no owner for "default". */
  lemma LoadDefaultUnowned(userLines: seq<string>, deviceLines: seq<string>)
    requires Load(userLines, deviceLines).Normal?
    ensures DefaultUnowned(Load(userLines, deviceLines).value)
  {
  }

  /** Loading restores permission entries for user ids only: every loaded
      domain that is not also a user id has none, so every permission check
      on it throws. */
  lemma LoadedDomainGateThrows(userLines: seq<string>, deviceLines: seq<string>, d: DomainName)
    requires Load(userLines, deviceLines).Normal?
    requires d in Load(userLines, deviceLines).value.domains
    requires d !in Load(userLines, deviceLines).value.users
    ensures GateThrows(Load(userLines, deviceLines).value, d)
    ensures forall u :: HasDomainPermission(Load(userLines, deviceLines).value, u, d).Aborted?
  {
  }

  /** After a restart, a domain that held a device and is not named after a
      user has lost its permission set: every permission check on it, and so
      every ADD, RD and RT naming it, throws. */
  lemma RestartLosesDomainPermissions(s: State, d: DomainName, x: DeviceId)
    requires Persisted(s)
    requires InDomain(s.domains, d, x) && d !in s.users
    ensures Load(s.userLines, s.deviceLines).Normal?
    ensures GateThrows(Load(s.userLines, s.deviceLines).value, d)
  {
    Restart(s);
    var loaded := Load(s.userLines, s.deviceLines).value;
    assert InDomain(loaded.domains, d, x);
    LoadedDomainGateThrows(s.userLines, s.deviceLines, d);
  }

  /** A handshake leaves "default" without owner, and a session that reaches
      the command loop finds "default" in place. */
  lemma HandshakeKeepsDefaultUnowned(s: State, u: UserId, password: string, candidates: seq<DeviceId>,
                                     programName: string, programSize: int,
                                     allowList: Option<seq<AllowEntry>>)
    requires DefaultUnowned(s)
    ensures var r := Handshake(s, u, password, candidates, programName, programSize, allowList);
            && DefaultUnowned(r.state)
            && (r.session.Some? ==> SessionReady(r.state))
  {
    HandshakeBindsDevice(s, u, password, candidates, programName, programSize, allowList);
  }

  /** A command never makes anybody an owner of "default": CREATE default
      fails because "default" exists, and ADD to "default" fails at the
      caller's own permission check. */
  lemma CommandKeepsSessionReady(s: State, session: Session, parts: seq<string>, image: Image, parse: TemperatureParser)
    requires SessionReady(s)
    ensures var r := Command(s, session, parts, image, parse);
            r.Normal? ==> SessionReady(r.value.state)
  {
    if |parts| == 3 && VerbOf(parts[0]) == AddVerb {
      AddOutcome(s, session.user, parts);
    }
  }

  /** RI never grants: in a session-ready state, no command replies with an
      image. */
  lemma CommandNeverReadsImage(s: State, session: Session, parts: seq<string>, image: Image, parse: TemperatureParser)
    requires SessionReady(s)
    ensures var r := Command(s, session, parts, image, parse);
            r.Normal? ==> !r.value.reply.ImageReport?
  {
  }

  /** Over a whole command loop: no reply is an image and the state stays
      session-ready. */
  lemma {:induction false} RunNeverReadsImages(s: State, session: Session, inputs: seq<Input>, parse: TemperatureParser)
    requires SessionReady(s)
    ensures var r := Run(s, session, inputs, parse);
            && SessionReady(r.state)
            && forall i :: 0 <= i < |r.replies| ==> !r.replies[i].ImageReport?
    decreases |inputs|
  {
    if |inputs| > 0 {
      var parts := JavaStrings.Split(inputs[0].line, ' ');
      var step := Step(s, session, inputs[0].line, inputs[0].image, parse);
      assert step == Command(s, session, parts, inputs[0].image, parse);
      CommandKeepsSessionReady(s, session, parts, inputs[0].image, parse);
      CommandNeverReadsImage(s, session, parts, inputs[0].image, parse);
      if step.Normal? {
        RunNeverReadsImages(step.value.state, session, inputs[1..], parse);
      }
    }
  }

  /** s' differs from s only as a command may make it: same users and users
      file, no domain removed, no membership lost, and no device other than
      dev gained a membership. */
  ghost predicate CommandFrame(s: State, s': State, dev: DeviceId)
  {
    && s'.users == s.users
    && s'.userLines == s.userLines
    && s.domains.Keys <= s'.domains.Keys
    && (forall d, x :: InDomain(s.domains, d, x) ==> InDomain(s'.domains, d, x))
    && (forall d, x :: InDomain(s'.domains, d, x) && !InDomain(s.domains, d, x) ==> x == dev)
  }

  /** What a command may change: users and the users file never; domains
      only gain members, and the only device that can join a domain is the
      session's own. */
  lemma CommandFrameHolds(s: State, session: Session, parts: seq<string>, image: Image, parse: TemperatureParser)
    ensures var r := Command(s, session, parts, image, parse);
            r.Normal? ==> CommandFrame(s, r.value.state, session.device)
  {
    var r := Command(s, session, parts, image, parse);
    if r.Normal? && r.value.state != s {
      match VerbOf(parts[0])
      case CreateVerb =>
        assert forall d, x :: InDomain(r.value.state.domains, d, x) <==> InDomain(s.domains, d, x);
      case RdVerb =>
        RegisterInDomainOutcome(s, session, parts);
      case _ =>
    }
  }

  lemma AllDevicesAddEmpty(domains: map<DomainName, set<DeviceId>>, d: DomainName)
    requires d !in domains
    ensures AllDevices(domains[d := {}]) == AllDevices(domains)
  {
    var m := domains[d := {}];
    forall x | x in AllDevices(domains)
      ensures x in AllDevices(m)
    {
      var e :| e in domains && x in domains[e];
      assert e in m && x in m[e];
    }
  }

  /** Commands keep the telemetry maps in step with the registered devices. */
  lemma CommandTracksDevices(s: State, session: Session, parts: seq<string>, image: Image, parse: TemperatureParser)
    requires TelemetryTracksDevices(s)
    ensures var r := Command(s, session, parts, image, parse);
            r.Normal? ==> TelemetryTracksDevices(r.value.state)
  {
    if |parts| == 2 && VerbOf(parts[0]) == CreateVerb && parts[1] !in s.domains {
      AllDevicesAddEmpty(s.domains, parts[1]);
    } else if |parts| == 2 && VerbOf(parts[0]) == RdVerb {
      RegisterDeviceTracksDevices(s, session.user, session.device, parts[1]);
    }
  }

  /** A device bound by the handshake accepts a parsable temperature: ET
      then answers that the temperature was registered. */
  lemma BoundDeviceAcceptsTemperature(s: State, session: Session, value: string, parse: TemperatureParser)
    requires TelemetryTracksDevices(s)
    requires session.device in Members(s.domains, DefaultDomain)
    requires ' ' !in value && value != "" && parse(value).Some?
    ensures Step(s, session, "ET " + value, [], parse).Normal?
    ensures Step(s, session, "ET " + value, [], parse).value.reply == Says(TemperatureRegistered)
  {
    var ps := ["ET", value];
    assert JavaStrings.Join(ps, ' ') == "ET " + value by {
      assert ps[1..] == [value];
    }
    JavaStrings.SplitOfJoin(ps, ' ');
    assert session.device in AllDevices(s.domains);
  }

  /** A handshake keeps the telemetry maps in step with the registered
      devices. */
  lemma HandshakeTracksDevices(s: State, u: UserId, password: string, candidates: seq<DeviceId>,
                               programName: string, programSize: int,
                               allowList: Option<seq<AllowEntry>>)
    requires TelemetryTracksDevices(s)
    ensures TelemetryTracksDevices(Handshake(s, u, password, candidates, programName, programSize, allowList).state)
  {
    var login := Login(s, u, password);
    var binding := BindDevice(login.state, u, candidates);
    BindDeviceOutcome(login.state, u, candidates);
    if binding.device.Some? {
      RegisterDeviceTracksDevices(login.state, u, binding.device.value, DefaultDomain);
    }
  }

  /** Persisted depends only on the users, the files and domain
      membership. */
  lemma PersistedFrame(s: State, s': State)
    requires Persisted(s)
    requires s'.users == s.users && s'.userLines == s.userLines && s'.deviceLines == s.deviceLines
    requires forall d, x :: InDomain(s'.domains, d, x) <==> InDomain(s.domains, d, x)
    ensures Persisted(s')
  {
  }

  /** Login registers only a new user, so only then do its fields matter. */
  lemma LoginPersists(s: State, u: UserId, password: string)
    requires Persisted(s)
    requires u !in s.users ==> ',' !in u && ',' !in password && password != ""
    ensures Persisted(Login(s, u, password).state)
  {
    RegisterUserPersists(s, u, password);
  }

  /** Binding registers only the first id not yet in "default", so only the
      free ids need to be comma-free. */
  lemma {:induction false} BindDevicePersists(s: State, u: UserId, candidates: seq<DeviceId>)
    requires Persisted(s)
    requires forall i :: 0 <= i < |candidates| && !InDomain(s.domains, DefaultDomain, candidates[i]) ==> ',' !in candidates[i]
    ensures Persisted(BindDevice(s, u, candidates).state)
    decreases |candidates|
  {
    if |candidates| > 0 {
      if InDomain(s.domains, DefaultDomain, candidates[0]) {
        var tail := candidates[1..];
        assert forall i :: 0 <= i < |tail| ==> tail[i] == candidates[i + 1];
        BindDevicePersists(s, u, tail);
        assert BindDevice(s, u, candidates).state == BindDevice(s, u, tail).state;
      } else {
        assert ',' !in DefaultDomain;
        RegisterDevicePersists(s, u, candidates[0], DefaultDomain);
        assert BindDevice(s, u, candidates).state == RegisterDevice(s, u, candidates[0], DefaultDomain).state;
      }
    }
  }

  /** A handshake keeps the record files in step with the users and domain
      membership, provided a new user's fields are comma-free with a
      non-empty password and the free device ids are comma-free. */
  lemma HandshakePersists(s: State, u: UserId, password: string, candidates: seq<DeviceId>,
                          programName: string, programSize: int,
                          allowList: Option<seq<AllowEntry>>)
    requires Persisted(s)
    requires u !in s.users ==> ',' !in u && ',' !in password && password != ""
    requires forall i :: 0 <= i < |candidates| && !InDomain(s.domains, DefaultDomain, candidates[i]) ==> ',' !in candidates[i]
    ensures Persisted(Handshake(s, u, password, candidates, programName, programSize, allowList).state)
  {
    var login := Login(s, u, password);
    LoginPersists(s, u, password);
    BindDevicePersists(login.state, u, candidates);
  }

  /** RD from a comma-free line appends a record that reads back as the
      membership it adds. */
  lemma RegisterInDomainPersists(s: State, session: Session, line: string)
    requires Persisted(s)
    requires ',' !in line && ',' !in session.device
    requires |JavaStrings.Split(line, ' ')| == 2
    ensures var r := RegisterInDomain(s, session, JavaStrings.Split(line, ' '));
            r.Normal? ==> Persisted(r.value.state)
  {
    var parts := JavaStrings.Split(line, ' ');
    var d := parts[1];
    JavaStrings.SplitPieces(line, ' ');
    assert ' ' in line;
    assert ',' !in d && d != "";
    RegisterDevicePersists(s, session.user, session.device, d);
  }

  /** Every command other than RD leaves the users, the files and domain
      membership as they were (CREATE adds an empty domain only). */
  lemma NonRegisteringCommandFrame(s: State, session: Session, parts: seq<string>, image: Image, parse: TemperatureParser)
    requires |parts| == 0 || VerbOf(parts[0]) != RdVerb
    ensures var r := Command(s, session, parts, image, parse);
            r.Normal? ==>
              && r.value.state.users == s.users
              && r.value.state.userLines == s.userLines
              && r.value.state.deviceLines == s.deviceLines
              && forall d, x :: InDomain(r.value.state.domains, d, x) <==> InDomain(s.domains, d, x)
  {
    var r := Command(s, session, parts, image, parse);
    if r.Normal? && r.value.state != s {
      var s' := r.value.state;
      if VerbOf(parts[0]) == CreateVerb {
        assert forall d, x :: InDomain(s'.domains, d, x) <==> InDomain(s.domains, d, x);
      } else {
        assert s'.domains == s.domains;
      }
    }
  }

  /** Every command other than RD keeps the files in step. */
  lemma NonRegisteringCommandPersists(s: State, session: Session, parts: seq<string>, image: Image, parse: TemperatureParser)
    requires Persisted(s)
    ensures var r := Command(s, session, parts, image, parse);
            r.Normal? && VerbOf(parts[0]) != RdVerb ==> Persisted(r.value.state)
  {
    var r := Command(s, session, parts, image, parse);
    if r.Normal? && VerbOf(parts[0]) != RdVerb {
      NonRegisteringCommandFrame(s, session, parts, image, parse);
      PersistedFrame(s, r.value.state);
    }
  }

  /** Every command keeps the record files in step, provided an RD line and
      the session's device id have no comma: only RD writes a record, and
      CREATE adds an empty domain, which a replay of the files cannot tell
      from a missing one. */
  lemma StepPersists(s: State, session: Session, line: string, image: Image, parse: TemperatureParser)
    requires Persisted(s)
    requires |JavaStrings.Split(line, ' ')| > 0 && VerbOf(JavaStrings.Split(line, ' ')[0]) == RdVerb
             ==> ',' !in line && ',' !in session.device
    ensures var r := Step(s, session, line, image, parse);
            r.Normal? ==> Persisted(r.value.state)
  {
    var parts := JavaStrings.Split(line, ' ');
    assert Step(s, session, line, image, parse) == Command(s, session, parts, image, parse);
    if |parts| == 2 && VerbOf(parts[0]) == RdVerb {
      RegisterInDomainPersists(s, session, line);
    } else if |parts| > 0 && VerbOf(parts[0]) == RdVerb {
      assert Command(s, session, parts, image, parse) == Answer(s, InvalidCommand);
    } else if |parts| > 0 {
      NonRegisteringCommandPersists(s, session, parts, image, parse);
    }
  }
}

=== FILE: java_strings.dfy ===
/** Java's `String.split` for a one-character delimiter that is not a
    regular-expression metacharacter (the server splits on ' ', ',' and ':'),
    with the default limit 0: the string is cut at every occurrence of the
    delimiter, trailing empty pieces are dropped, and a string in which the
    delimiter does not occur comes back as the one-element array `[s]`. */
module JavaStrings {

  /** Position of the first occurrence of c in s. */
  function IndexOf(s: string, c: char): (i: nat)
    requires c in s
    ensures i < |s| && s[i] == c
    ensures c !in s[..i]
  {
    if s[0] == c then 0
    else
      assert s == [s[0]] + s[1..];
      var j := IndexOf(s[1..], c);
      assert s[..j + 1] == [s[0]] + s[1..][..j];
      j + 1
  }

  /** The pieces of s between occurrences of c, empty pieces included. */
  function Pieces(s: string, c: char): (ps: seq<string>)
    ensures |ps| >= 1
    ensures forall k :: 0 <= k < |ps| ==> c !in ps[k]
    decreases |s|
  {
    if c !in s then [s]
    else
      var i := IndexOf(s, c);
      [s[..i]] + Pieces(s[i + 1..], c)
  }

  /** Every character of a piece comes from s. */
  lemma {:induction false} PiecesChars(s: string, c: char)
    ensures forall k, x :: 0 <= k < |Pieces(s, c)| && x in Pieces(s, c)[k] ==> x in s
    decreases |s|
  {
    if c in s {
      var i := IndexOf(s, c);
      PiecesChars(s[i + 1..], c);
      assert forall x :: x in s[i + 1..] ==> x in s;
      assert forall x :: x in s[..i] ==> x in s;
    }
  }

  /** The pieces put back together with c between neighbours. */
  function Join(ps: seq<string>, c: char): string
  {
    if |ps| == 0 then ""
    else if |ps| == 1 then ps[0]
    else ps[0] + [c] + Join(ps[1..], c)
  }

  /** The longest prefix of ps whose last element is not the empty string. */
  function DropTrailingEmpty(ps: seq<string>): (r: seq<string>)
    ensures r <= ps
    ensures |r| > 0 ==> r[|r| - 1] != ""
    ensures forall k :: |r| <= k < |ps| ==> ps[k] == ""
  {
    if |ps| > 0 && ps[|ps| - 1] == "" then DropTrailingEmpty(ps[..|ps| - 1]) else ps
  }

  /** Dropping trailing empty pieces keeps every piece up to a non-empty one. */
  lemma DropTrailingEmptyKeeps(ps: seq<string>, j: nat)
    requires j < |ps| && ps[j] != ""
    ensures |DropTrailingEmpty(ps)| > j
    ensures forall k :: 0 <= k <= j ==> DropTrailingEmpty(ps)[k] == ps[k]
  {
  }

  /** Dropping trailing empty pieces keeps the first two pieces when a later
      one is non-empty. */
  lemma DropTrailingEmptyKeepsPair(ps: seq<string>, x: string, y: string, tail: seq<string>, j: nat)
    requires ps == [x] + ([y] + tail)
    requires j < |tail| && tail[j] != ""
    ensures |DropTrailingEmpty(ps)| >= 2
    ensures DropTrailingEmpty(ps)[0] == x && DropTrailingEmpty(ps)[1] == y
  {
    assert ps[j + 2] == tail[j];
    DropTrailingEmptyKeeps(ps, j + 2);
  }

  /** `s.split(c)` in Java. */
  function Split(s: string, c: char): (r: seq<string>)
    ensures forall k :: 0 <= k < |r| ==> c !in r[k]
  {
    if c !in s then [s] else DropTrailingEmpty(Pieces(s, c))
  }

  /** A piece of `s.split(c)` holds only characters of s, and when c occurs
      in s the last piece (if any) is not empty. */
  lemma SplitPieces(s: string, c: char)
    ensures forall k, x :: 0 <= k < |Split(s, c)| && x in Split(s, c)[k] ==> x in s
    ensures c in s && |Split(s, c)| > 0 ==> Split(s, c)[|Split(s, c)| - 1] != ""
  {
    PiecesChars(s, c);
  }

  lemma JoinCons(p: string, ps: seq<string>, c: char)
    requires |ps| >= 1
    ensures Join([p] + ps, c) == p + [c] + Join(ps, c)
  {
    assert ([p] + ps)[1..] == ps;
  }

  /** Cutting s at c and gluing the pieces back gives s again. */
  lemma {:induction false} JoinPieces(s: string, c: char)
    ensures Join(Pieces(s, c), c) == s
    decreases |s|
  {
    if c in s {
      var i := IndexOf(s, c);
      var head := s[..i];
      var rest := s[i + 1..];
      var ps := Pieces(rest, c);
      assert Pieces(s, c) == [head] + ps;
      JoinPieces(rest, c);
      JoinCons(head, ps, c);
      assert s == head + [c] + rest;
    }
  }

  lemma IndexOfAfter(h: string, c: char, t: string)
    requires c !in h
    ensures c in h + [c] + t
    ensures IndexOf(h + [c] + t, c) == |h|
  {
    var s := h + [c] + t;
    assert s[|h|] == c;
    var i := IndexOf(s, c);
  }

  /** Cutting a string that starts with a delimiter-free h followed by c
      yields h, then the pieces of the rest. */
  lemma PiecesAfter(h: string, c: char, t: string)
    requires c !in h
    ensures Pieces(h + [c] + t, c) == [h] + Pieces(t, c)
  {
    var s := h + [c] + t;
    IndexOfAfter(h, c, t);
    assert s[..|h|] == h && s[|h| + 1..] == t;
  }

  /** The pieces of a, c, b when a is delimiter-free and c occurs in b. */
  lemma PiecesOfTwoCuts(s: string, a: string, c: char, b: string)
    requires s == a + [c] + b
    requires c !in a && c in b
    ensures c in s
    ensures Pieces(s, c) == [a] + ([b[..IndexOf(b, c)]] + Pieces(b[IndexOf(b, c) + 1..], c))
  {
    assert s[|a|] == c;
    PiecesAfter(a, c, b);
  }

  /** A string with a character other than c has a non-empty piece. */
  lemma SomePieceNonEmpty(s: string, c: char, k: nat)
    requires k < |s| && s[k] != c
    ensures exists j :: 0 <= j < |Pieces(s, c)| && Pieces(s, c)[j] != ""
  {
    var ps := Pieces(s, c);
    JoinPieces(s, c);
    assert s[k] in Join(ps, c);
    if forall j :: 0 <= j < |ps| ==> ps[j] == "" {
      JoinAllEmpty(ps, c);
    }
  }

  /** Splitting a, c, b where a is delimiter-free and some piece of b after
      its first c is non-empty: the first two fields are a and the text of b
      before its first c. */
  lemma SplitAfterTwoCuts(s: string, a: string, c: char, b: string, j: nat)
    requires s == a + [c] + b
    requires c !in a && c in b
    requires j < |Pieces(b[IndexOf(b, c) + 1..], c)| && Pieces(b[IndexOf(b, c) + 1..], c)[j] != ""
    ensures |Split(s, c)| >= 2
    ensures Split(s, c)[0] == a && Split(s, c)[1] == b[..IndexOf(b, c)]
  {
    var i := IndexOf(b, c);
    var tail := Pieces(b[i + 1..], c);
    var ps := [a] + ([b[..i]] + tail);
    PiecesOfTwoCuts(s, a, c, b);
    assert Split(s, c) == DropTrailingEmpty(ps);
    DropTrailingEmptyKeepsPair(ps, a, b[..i], tail, j);
  }

  /** The text after the first c of b has a character other than c exactly
      when one of its pieces is non-empty. */
  lemma NonDelimiterAfterCut(b: string, c: char, k: nat)
    requires c in b && IndexOf(b, c) < k < |b| && b[k] != c
    ensures var ps := Pieces(b[IndexOf(b, c) + 1..], c);
            exists j :: 0 <= j < |ps| && ps[j] != ""
  {
    var i := IndexOf(b, c);
    assert b[i + 1..][k - i - 1] == b[k];
    SomePieceNonEmpty(b[i + 1..], c, k - i - 1);
  }

  /** Gluing delimiter-free pieces with c and cutting at c gives the pieces back. */
  lemma {:induction false} PiecesJoin(ps: seq<string>, c: char)
    requires |ps| >= 1
    requires forall k :: 0 <= k < |ps| ==> c !in ps[k]
    ensures Pieces(Join(ps, c), c) == ps
    decreases |ps|
  {
    if |ps| > 1 {
      var h := ps[0];
      var tail := ps[1..];
      var t := Join(tail, c);
      var s := Join(ps, c);
      assert ps == [h] + tail;
      JoinCons(h, tail, c);
      IndexOfAfter(h, c, t);
      assert s[..|h|] == h;
      assert s[|h| + 1..] == t;
      PiecesJoin(tail, c);
      assert Pieces(s, c) == [s[..|h|]] + Pieces(s[|h| + 1..], c);
    }
  }

  /** Round trip: splitting a joined list of delimiter-free fields gives the
      fields back, provided the last one is not empty (Java would drop it). */
  lemma SplitOfJoin(ps: seq<string>, c: char)
    requires |ps| >= 1
    requires forall k :: 0 <= k < |ps| ==> c !in ps[k]
    requires |ps| == 1 || ps[|ps| - 1] != ""
    ensures Split(Join(ps, c), c) == ps
  {
    if |ps| > 1 {
      var h := ps[0];
      var t := Join(ps[1..], c);
      assert Join(ps, c) == h + [c] + t;
      IndexOfAfter(h, c, t);
      PiecesJoin(ps, c);
    }
  }

  lemma {:induction false} JoinAllEmpty(ps: seq<string>, c: char)
    requires forall k :: 0 <= k < |ps| ==> ps[k] == ""
    ensures forall x :: x in Join(ps, c) ==> x == c
    decreases |ps|
  {
    if |ps| > 1 {
      JoinAllEmpty(ps[1..], c);
    }
  }

  lemma {:induction false} PiecesOfDelimiters(s: string, c: char)
    requires forall k :: 0 <= k < |s| ==> s[k] == c
    ensures forall k :: 0 <= k < |Pieces(s, c)| ==> Pieces(s, c)[k] == ""
    decreases |s|
  {
    if |s| > 0 {
      assert s[0] in s;
      assert IndexOf(s, c) == 0;
      PiecesOfDelimiters(s[1..], c);
    }
  }

  /** A string cut once after a delimiter-free head, with only delimiters
      after the cut, splits to at most one field: every later piece is
      empty, and Java drops trailing empty pieces. */
  lemma SplitBeforeDelimiters(s: string, a: string, c: char, b: string)
    requires s == a + [c] + b && c !in a
    requires forall k :: 0 <= k < |b| ==> b[k] == c
    ensures |Split(s, c)| <= 1
  {
    assert s[|a|] == c;
    PiecesAfter(a, c, b);
    PiecesOfDelimiters(b, c);
    var ps := Pieces(s, c);
    assert forall k :: 1 <= k < |ps| ==> ps[k] == Pieces(b, c)[k - 1] == "";
  }

  /** Java's split returns an empty array exactly when the string is
      non-empty and made only of delimiters. */
  lemma SplitEmpty(s: string, c: char)
    ensures |Split(s, c)| == 0 <==> |s| > 0 && forall k :: 0 <= k < |s| ==> s[k] == c
  {
    var ps := Pieces(s, c);
    if |Split(s, c)| == 0 {
      assert c in s;
      assert forall k :: 0 <= k < |ps| ==> ps[k] == "";
      JoinAllEmpty(ps, c);
      JoinPieces(s, c);
      assert forall k :: 0 <= k < |s| ==> s[k] in Join(ps, c);
    }
    if |s| > 0 && forall k :: 0 <= k < |s| ==> s[k] == c {
      assert s[0] in s;
      PiecesOfDelimiters(s, c);
    }
  }
}

=== FILE: messages.dfy ===
/** The status strings the server writes to a client. */
module Messages {

  datatype Message =
    // handshake
    | OkUser | OkNewUser | WrongPwd
    | NokDevId | OkDevId
    | OkTested | NokTested
    // command loop
    | InvalidCommand
    | DomainExists | DomainCreated
    | NoAddPermission | NoSuchUser | AlreadyPermitted | UserAdded
    | NoRegisterPermission | AlreadyRegistered | DeviceRegistered
    | DeviceNotRegistered | TemperatureRegistered | ImageRegistered
    | NoReadPermission
    | NoImagePermission
  {
    /** The exact text sent on the wire. */
    function Text(): string
    {
      match this
      case OkUser => "OK-USER"
      case OkNewUser => "OK-NEW-USER"
      case WrongPwd => "WRONG-PWD"
      case NokDevId => "NOK-DEVID"
      case OkDevId => "OK-DEVID"
      case OkTested => "OK-TESTED"
      case NokTested => "NOK-TESTED"
      case InvalidCommand => "Invalid command"
      case DomainExists => "Domain already exists"
      case DomainCreated => "Domain created"
      case NoAddPermission => "You do not have permission to add users to this domain"
      case NoSuchUser => "User does not exist"
      case AlreadyPermitted => "User already has permission for this domain"
      case UserAdded => "User added to domain"
      case NoRegisterPermission => "You do not have permission to register devices in this domain"
      case AlreadyRegistered => "Device already registered in this domain"
      case DeviceRegistered => "Device registered in domain"
      case DeviceNotRegistered => "Device not registered"
      case TemperatureRegistered => "Temperature data registered"
      case ImageRegistered => "Image data registered"
      case NoReadPermission => "You do not have permission to read data from this domain"
      case NoImagePermission => "You do not have permission to read image data from this device"
    }
  }
}

=== FILE: outcomes.dfy ===
/** Small result types shared by the rest of the model. */
module Outcomes {

  /** A value that may be missing; stands for a Java reference that may be null. */
  datatype Option<+T> = None | Some(value: T)

  /** How a piece of server code finished: it either returned a value normally,
      or it threw an unchecked exception (a NullPointerException, an
      ArrayIndexOutOfBoundsException, a NumberFormatException) that nothing
      catches. In a client's handler that ends the client's thread and closes
      its connection; during start-up loading it escapes the constructor, so
      the server never starts. */
  datatype Outcome<+T> = Normal(value: T) | Aborted
}

=== FILE: persistence.dfy ===
/** Start-up loading (IoTServer.java:46-92) and the append-only record files
    that RegisterUser and RegisterDevice write. Each line is split at commas
    and its first two fields are used; a line with fewer than two fields
    makes the constructor index past the end of the array. */
module Persistence {
  import opened Outcomes
  import JavaStrings
  import opened Registry

  /** The first two comma-separated fields of a record line. */
  function ParseRecord(line: string): (r: Outcome<(string, string)>)
    ensures r.Normal? <==> |JavaStrings.Split(line, ',')| >= 2
    ensures r.Normal? ==> ',' !in r.value.0 && ',' !in r.value.1
  {
    var parts := JavaStrings.Split(line, ',');
    if |parts| < 2 then Aborted else Normal((parts[0], parts[1]))
  }

  /** A record written from two comma-free fields, the second non-empty,
      reads back as the same two fields. */
  lemma RecordRoundTrip(first: string, second: string)
    requires ',' !in first && ',' !in second && second != ""
    ensures ParseRecord(Record(first, second)) == Normal((first, second))
  {
    var ps := [first, second];
    assert JavaStrings.Join(ps, ',') == Record(first, second) by {
      assert ps[1..] == [second];
    }
    JavaStrings.SplitOfJoin(ps, ',');
  }

  /** A second field holding a comma is cut at its first comma when the
      record is read back, provided some character after that comma is not a
      comma (otherwise the trailing pieces are empty and may be dropped). */
  lemma CommaInFieldIsTruncated(first: string, second: string)
    requires ',' !in first && ',' in second
    requires exists k :: JavaStrings.IndexOf(second, ',') < k < |second| && second[k] != ','
    ensures ParseRecord(Record(first, second)) == Normal((first, second[..JavaStrings.IndexOf(second, ',')]))
  {
    var i := JavaStrings.IndexOf(second, ',');
    var k :| i < k < |second| && second[k] != ',';
    JavaStrings.NonDelimiterAfterCut(second, ',', k);
    var tail := JavaStrings.Pieces(second[i + 1..], ',');
    var j :| 0 <= j < |tail| && tail[j] != "";
    JavaStrings.SplitAfterTwoCuts(Record(first, second), first, ',', second, j);
  }

  /** A record whose second field is empty or made only of commas reads
      back with fewer than two fields: every piece after the first is empty,
      and Java's split drops trailing empty pieces. */
  lemma CommaOnlyFieldRecordDoesNotParse(first: string, second: string)
    requires ',' !in first
    requires forall k :: 0 <= k < |second| ==> second[k] == ','
    ensures ParseRecord(Record(first, second)).Aborted?
  {
    var line := Record(first, second);
    assert line == first + [','] + second;
    JavaStrings.SplitBeforeDelimiters(line, first, ',', second);
  }

  /** True when every line has at least two fields. */
  ghost predicate AllParse(lines: seq<string>)
  {
    forall i :: 0 <= i < |lines| ==> ParseRecord(lines[i]).Normal?
  }

  lemma AllParseSnoc(lines: seq<string>)
    requires |lines| > 0
    ensures AllParse(lines) <==> AllParse(lines[..|lines| - 1]) && ParseRecord(lines[|lines| - 1]).Normal?
  {
    var init := lines[..|lines| - 1];
    assert forall i :: 0 <= i < |init| ==> init[i] == lines[i];
  }

  /** Lines 49-55, users part: each record sets the user's password. */
  function ReplayUsers(lines: seq<string>): (r: Outcome<map<UserId, string>>)
    ensures r.Normal? <==> AllParse(lines)
    decreases |lines|
  {
    if |lines| == 0 then Normal(map[])
    else
      var init := lines[..|lines| - 1];
      AllParseSnoc(lines);
      match ReplayUsers(init)
      case Aborted => Aborted
      case Normal(users) =>
        match ParseRecord(lines[|lines| - 1])
        case Aborted => Aborted
        case Normal(record) => Normal(users[record.0 := record.1])
  }

  /** Lines 70-82, domains part: each record adds its device to its domain. */
  function ReplayDevices(lines: seq<string>): (r: Outcome<map<DomainName, set<DeviceId>>>)
    ensures r.Normal? <==> AllParse(lines)
    decreases |lines|
  {
    if |lines| == 0 then Normal(map[])
    else
      var init := lines[..|lines| - 1];
      AllParseSnoc(lines);
      match ReplayDevices(init)
      case Aborted => Aborted
      case Normal(domains) =>
        match ParseRecord(lines[|lines| - 1])
        case Aborted => Aborted
        case Normal(record) =>
          Normal(domains[record.1 := Members(domains, record.1) + {record.0}])
  }

  /** Some line of the file records device x in domain d. */
  ghost predicate Logged(lines: seq<string>, x: DeviceId, d: DomainName)
  {
    exists i :: 0 <= i < |lines| && ParseRecord(lines[i]) == Normal((x, d))
  }

  lemma LoggedSnoc(init: seq<string>, line: string, x: DeviceId, d: DomainName)
    ensures Logged(init + [line], x, d) <==> Logged(init, x, d) || ParseRecord(line) == Normal((x, d))
  {
    var lines := init + [line];
    if Logged(init, x, d) {
      var i :| 0 <= i < |init| && ParseRecord(init[i]) == Normal((x, d));
      assert lines[i] == init[i];
    }
    if ParseRecord(line) == Normal((x, d)) {
      assert lines[|init|] == line;
    }
    if Logged(lines, x, d) {
      var i :| 0 <= i < |lines| && ParseRecord(lines[i]) == Normal((x, d));
      if i < |init| {
        assert lines[i] == init[i];
      }
    }
  }

  /** After replay, a device is in a domain exactly when some line of
      devices.txt records that pair. */
  lemma {:induction false} ReplayDevicesMembership(lines: seq<string>, d: DomainName, x: DeviceId)
    requires AllParse(lines)
    ensures InDomain(ReplayDevices(lines).value, d, x) <==> Logged(lines, x, d)
    decreases |lines|
  {
    if |lines| > 0 {
      var init := lines[..|lines| - 1];
      var line := lines[|lines| - 1];
      assert lines == init + [line];
      AllParseSnoc(lines);
      ReplayDevicesMembership(init, d, x);
      LoggedSnoc(init, line, x, d);
      var prev := ReplayDevices(init).value;
      var record := ParseRecord(line).value;
      assert ReplayDevices(lines) == Normal(AddMember(prev, record.1, record.0));
      assert InDomain(ReplayDevices(lines).value, d, x) <==>
               InDomain(prev, d, x) || (record.1 == d && record.0 == x);
      assert ParseRecord(line) == Normal((x, d)) <==> record == (x, d);
    }
  }

  /** Lines 32-93: the registry rebuilt from the two files. Every user gets
      an empty entry in the permission map; every logged device gets null
      telemetry; domains created with CREATE and their permission sets are
      not in the files and are not restored. */
  function Load(userLines: seq<string>, deviceLines: seq<string>): (r: Outcome<State>)
    ensures r.Normal? <==> AllParse(userLines) && AllParse(deviceLines)
    ensures r.Normal? ==> TelemetryTracksDevices(r.value)
    ensures r.Normal? ==> r.value.permissions.Keys == r.value.users.Keys
    ensures r.Normal? ==> forall k :: k in r.value.permissions ==> r.value.permissions[k] == {}
    ensures r.Normal? ==> r.value.userLines == userLines && r.value.deviceLines == deviceLines
    ensures r.Normal? ==> r.value.users == ReplayUsers(userLines).value
    ensures r.Normal? ==> r.value.domains == ReplayDevices(deviceLines).value
    ensures r.Normal? ==> forall x :: x in r.value.temperatures ==> r.value.temperatures[x] == None
    ensures r.Normal? ==> forall x :: x in r.value.images ==> r.value.images[x] == None
  {
    match ReplayUsers(userLines)
    case Aborted => Aborted
    case Normal(users) =>
      match ReplayDevices(deviceLines)
      case Aborted => Aborted
      case Normal(domains) =>
        var devices := AllDevices(domains);
        Normal(State(users, domains, map u | u in users :: {},
                     map x | x in devices :: None, map x | x in devices :: None,
                     userLines, deviceLines))
  }

  /** Lines 59-65 and 86-92: with neither file present the constructor
      creates both empty, and the server starts with an empty registry. */
  lemma LoadNothing()
    ensures Load([], []) == Normal(Empty)
  {
  }

  /** Domain maps with the same (domain, device) pairs; an empty domain and
      a missing one are not told apart. */
  ghost predicate SameMembership(a: map<DomainName, set<DeviceId>>, b: map<DomainName, set<DeviceId>>)
  {
    forall d, x :: InDomain(a, d, x) <==> InDomain(b, d, x)
  }

  /** The files reproduce the live users and domain membership. */
  ghost predicate Persisted(s: State)
  {
    && ReplayUsers(s.userLines) == Normal(s.users)
    && ReplayDevices(s.deviceLines).Normal?
    && SameMembership(ReplayDevices(s.deviceLines).value, s.domains)
  }

  /** A restart from persisted files gives back the same users and the same
      domain membership. */
  lemma Restart(s: State)
    requires Persisted(s)
    ensures Load(s.userLines, s.deviceLines).Normal?
    ensures Load(s.userLines, s.deviceLines).value.users == s.users
    ensures SameMembership(Load(s.userLines, s.deviceLines).value.domains, s.domains)
  {
  }

  /** Registering a user keeps the users file in step with the users map,
      provided a new user's fields are comma-free and the password is not
      empty; a refused registration writes nothing, whatever the fields. */
  lemma RegisterUserPersists(s: State, u: UserId, password: string)
    requires Persisted(s)
    requires u !in s.users ==> ',' !in u && ',' !in password && password != ""
    ensures Persisted(RegisterUser(s, u, password).state)
  {
    var s' := RegisterUser(s, u, password).state;
    if u !in s.users {
      var lines := s'.userLines;
      assert lines[..|lines| - 1] == s.userLines;
      RecordRoundTrip(u, password);
    }
  }

  /** Registering a device keeps the devices file in step with domain
      membership, provided a new member's ids are comma-free and the domain
      name is not empty; an existing membership writes nothing. */
  lemma RegisterDevicePersists(s: State, u: UserId, dev: DeviceId, d: DomainName)
    requires Persisted(s)
    requires !InDomain(s.domains, d, dev) ==> ',' !in dev && ',' !in d && d != ""
    ensures Persisted(RegisterDevice(s, u, dev, d).state)
  {
    var s' := RegisterDevice(s, u, dev, d).state;
    if !InDomain(s.domains, d, dev) {
      var lines := s'.deviceLines;
      assert lines[..|lines| - 1] == s.deviceLines;
      RecordRoundTrip(dev, d);
      var replayed := ReplayDevices(s.deviceLines).value;
      assert ReplayDevices(lines) == Normal(AddMember(replayed, d, dev));
    }
  }

  /** Registering a user whose password is empty or made only of commas
      writes a record that cannot be read back: the next start-up indexes
      past the end of the split line (line 53), and that exception is not an
      IOException, so the server does not start. */
  lemma CommaOnlyPasswordBreaksRestart(s: State, u: UserId, password: string)
    requires u !in s.users && ',' !in u
    requires forall k :: 0 <= k < |password| ==> password[k] == ','
    ensures var s1 := RegisterUser(s, u, password).state;
            Load(s1.userLines, s1.deviceLines).Aborted?
  {
    var lines := RegisterUser(s, u, password).state.userLines;
    CommaOnlyFieldRecordDoesNotParse(u, password);
    assert lines[|lines| - 1] == Record(u, password);
  }
}

=== FILE: registry.dfy ===
/** The server's in-memory registry (IoTServer.java): five maps, the two
    append-only record files, and the synchronized operations that change
    them. Every operation returns the new state; the `(State, bool)` pair
    mirrors the Java methods' boolean result. */
module Registry {
  import opened Outcomes

  type UserId = string
  type DeviceId = string
  type DomainName = string
  /** A `byte[]` image payload. */
  type Image = seq<bv8>
  /** A parsed `float`; its rounding is not modelled. */
  type Temperature = real

  /** The domain every device is registered in during the handshake. */
  const DefaultDomain: DomainName := "default"

  /** The registry. `permissions` is one map shared by two kinds of key: user
      ids (an empty set is stored for every registered user) and domain names
      (the users allowed to act on that domain). A null temperature or image
      entry is `None`. `userLines` and `deviceLines` are the lines of
      data/users.txt and data/devices.txt. */
  datatype State = State(
    users: map<UserId, string>,
    domains: map<DomainName, set<DeviceId>>,
    permissions: map<string, set<UserId>>,
    temperatures: map<DeviceId, Option<Temperature>>,
    images: map<DeviceId, Option<Image>>,
    userLines: seq<string>,
    deviceLines: seq<string>)

  /** A registry operation's new state and its boolean result. */
  datatype Update = Update(state: State, ok: bool)

  /** The registry before any file has been read, and after start-up when
      neither record file exists yet (the constructor then creates both
      empty). */
  const Empty := State(map[], map[], map[], map[], map[], [], [])

  /** One line of users.txt (`userId,password`) or devices.txt (`deviceId,domain`). */
  function Record(first: string, second: string): string
  {
    first + "," + second
  }

  /** A record holds the first field, one comma at its end, then the second
      field: a comma-free first field ends at the record's first comma. */
  lemma RecordFields(first: string, second: string)
    ensures var line := Record(first, second);
            && |line| == |first| + 1 + |second|
            && line[..|first|] == first && line[|first|] == ',' && line[|first| + 1..] == second
            && (',' !in first ==> forall i :: 0 <= i < |first| ==> line[i] != ',')
  {
  }

  /** The devices registered in domain d (none if d does not exist). */
  function Members(domains: map<DomainName, set<DeviceId>>, d: DomainName): set<DeviceId>
  {
    if d in domains then domains[d] else {}
  }

  predicate InDomain(domains: map<DomainName, set<DeviceId>>, d: DomainName, x: DeviceId)
  {
    d in domains && x in domains[d]
  }

  /** The domain map with device x added to domain d (created if missing). */
  function AddMember(domains: map<DomainName, set<DeviceId>>, d: DomainName, x: DeviceId): (m: map<DomainName, set<DeviceId>>)
    ensures forall e, y :: InDomain(m, e, y) <==> InDomain(domains, e, y) || (e == d && y == x)
    ensures m.Keys == domains.Keys + {d}
  {
    domains[d := Members(domains, d) + {x}]
  }

  /** Every device registered in some domain. */
  function AllDevices(domains: map<DomainName, set<DeviceId>>): set<DeviceId>
  {
    set d, x | d in domains && x in domains[d] :: x
  }

  /** m' is m with exactly one entry, k, set to v. */
  ghost predicate Overwritten<K, V>(m: map<K, V>, m': map<K, V>, k: K, v: V)
  {
    && m'.Keys == m.Keys + {k}
    && m'[k] == v
    && forall j :: j in m && j != k ==> m'[j] == m[j]
  }

  /** Lines 109-112: the stored password exists and equals the given one. */
  predicate Authenticate(s: State, u: UserId, password: string)
  {
    u in s.users && s.users[u] == password
  }

  /** Lines 114-130: adds a user that is not yet known, with an empty entry
      under its id in the permission map, and appends its record. */
  function RegisterUser(s: State, u: UserId, password: string): (r: Update)
    ensures r.ok <==> u !in s.users
    ensures !r.ok ==> r.state == s
  {
    if u in s.users then Update(s, false)
    else
      Update(s.(users := s.users[u := password],
                permissions := s.permissions[u := {}],
                userLines := s.userLines + [Record(u, password)]), true)
  }

  /** What a registration changes: the new user gets the given password and
      an empty permission entry (replacing any entry of that name), a stored
      password is never overwritten, and one users.txt line is appended. */
  lemma RegisterUserEffect(s: State, u: UserId, password: string)
    ensures var r := RegisterUser(s, u, password);
            && r.state.users.Keys == s.users.Keys + {u}
            && r.state.users[u] == (if u in s.users then s.users[u] else password)
            && (forall v :: v in s.users ==> r.state.users[v] == s.users[v])
            && (r.ok ==> Overwritten(s.permissions, r.state.permissions, u, {}))
            && (r.ok ==> r.state.userLines == s.userLines + [Record(u, password)])
            && r.state.(users := s.users, permissions := s.permissions, userLines := s.userLines) == s
  {
  }

  /** Registration and authentication agree: a new user authenticates with
      exactly the password given, a refused registration keeps the old
      password, and no other user's authentication changes. */
  lemma RegisterThenAuthenticate(s: State, u: UserId, password: string, v: UserId, attempt: string)
    ensures Authenticate(RegisterUser(s, u, password).state, v, attempt)
            <==> if v == u && u !in s.users then attempt == password else Authenticate(s, v, attempt)
  {
  }

  /** Lines 132-153: creates domain d if it is missing, then adds device dev
      to it unless it is already there; a new registration resets the
      device's temperature and image to null and appends a devices.txt line.
      The user id plays no part: devices are keyed by their id alone. */
  function RegisterDevice(s: State, u: UserId, dev: DeviceId, d: DomainName): (r: Update)
    ensures r.ok <==> !InDomain(s.domains, d, dev)
    ensures !r.ok ==> r.state == s
  {
    var devices := Members(s.domains, d);
    if dev in devices then Update(s, false)
    else
      Update(s.(domains := AddMember(s.domains, d, dev),
                temperatures := s.temperatures[dev := None],
                images := s.images[dev := None],
                deviceLines := s.deviceLines + [Record(dev, d)]), true)
  }

  /** What a new registration changes: dev joins d (created if missing),
      its temperature and image are reset to null even if they held values,
      one devices.txt line is appended, and nothing else changes. */
  lemma RegisterDeviceEffect(s: State, u: UserId, dev: DeviceId, d: DomainName)
    requires !InDomain(s.domains, d, dev)
    ensures var r := RegisterDevice(s, u, dev, d).state;
            && Overwritten(s.domains, r.domains, d, Members(s.domains, d) + {dev})
            && (forall e, x :: InDomain(r.domains, e, x) <==> InDomain(s.domains, e, x) || (e == d && x == dev))
            && Overwritten(s.temperatures, r.temperatures, dev, None)
            && Overwritten(s.images, r.images, dev, None)
            && r.deviceLines == s.deviceLines + [Record(dev, d)]
            && r.(domains := s.domains, temperatures := s.temperatures,
                  images := s.images, deviceLines := s.deviceLines) == s
  {
  }

  /** Lines 155-161: adds u to the permission set of domain d. An unknown
      domain gives false; a domain without a permission entry (one created by
      RegisterDevice) makes the code dereference null. */
  function AddDomainPermission(s: State, u: UserId, d: DomainName): (r: Outcome<Update>)
    ensures r.Aborted? <==> d in s.domains && d !in s.permissions
    ensures d !in s.domains ==> r == Normal(Update(s, false))
    ensures r.Normal? && d in s.domains ==>
              && d in s.permissions
              && (r.value.ok <==> u !in s.permissions[d])
              && Overwritten(s.permissions, r.value.state.permissions, d, s.permissions[d] + {u})
    ensures r.Normal? ==> r.value.state.(permissions := s.permissions) == s
  {
    if d !in s.domains then Normal(Update(s, false))
    else if d !in s.permissions then Aborted
    else
      var allowed := s.permissions[d];
      Normal(Update(s.(permissions := s.permissions[d := allowed + {u}]), u !in allowed))
  }

  /** Lines 163-170, the in-memory part: false for an unknown domain, true
      when u is in the domain's permission set, and a null dereference when
      the domain has no permission entry. */
  function HasDomainPermission(s: State, u: UserId, d: DomainName): (r: Outcome<bool>)
    ensures d !in s.domains ==> r == Normal(false)
    ensures r.Aborted? <==> d in s.domains && d !in s.permissions
    ensures r == Normal(true) <==> d in s.domains && d in s.permissions && u in s.permissions[d]
  {
    if d !in s.domains then Normal(false)
    else if d !in s.permissions then Aborted
    else Normal(u in s.permissions[d])
  }

  /** Lines 193-199: overwrites the last temperature of a known device. */
  function RegisterTemperatureData(s: State, dev: DeviceId, t: Temperature): (r: Update)
    ensures r.ok <==> dev in s.temperatures
    ensures !r.ok ==> r.state == s
    ensures r.ok ==> Overwritten(s.temperatures, r.state.temperatures, dev, Some(t))
    ensures r.state.(temperatures := s.temperatures) == s
  {
    if dev !in s.temperatures then Update(s, false)
    else Update(s.(temperatures := s.temperatures[dev := Some(t)]), true)
  }

  /** Lines 201-207: overwrites the last image of a known device. */
  function RegisterImageData(s: State, dev: DeviceId, image: Image): (r: Update)
    ensures r.ok <==> dev in s.images
    ensures !r.ok ==> r.state == s
    ensures r.ok ==> Overwritten(s.images, r.state.images, dev, Some(image))
    ensures r.state.(images := s.images) == s
  {
    if dev !in s.images then Update(s, false)
    else Update(s.(images := s.images[dev := Some(image)]), true)
  }

  /** The telemetry maps hold an entry exactly for the registered devices. */
  ghost predicate TelemetryTracksDevices(s: State)
  {
    && s.temperatures.Keys == AllDevices(s.domains)
    && s.images.Keys == AllDevices(s.domains)
  }

  lemma AllDevicesAdd(domains: map<DomainName, set<DeviceId>>, d: DomainName, dev: DeviceId)
    ensures AllDevices(AddMember(domains, d, dev)) == AllDevices(domains) + {dev}
  {
    var m := AddMember(domains, d, dev);
    forall x | x in AllDevices(domains)
      ensures x in AllDevices(m)
    {
      var e :| e in domains && x in domains[e];
      assert InDomain(m, e, x);
    }
    assert InDomain(m, d, dev);
  }

  /** A new registration keeps the telemetry maps in step with the devices. */
  lemma RegisterDeviceTracksDevices(s: State, u: UserId, dev: DeviceId, d: DomainName)
    requires TelemetryTracksDevices(s)
    ensures TelemetryTracksDevices(RegisterDevice(s, u, dev, d).state)
  {
    if !InDomain(s.domains, d, dev) {
      AllDevicesAdd(s.domains, d, dev);
    }
  }

  /** Last write wins: a second temperature for the same device replaces the
      first, and the result is as if only the second had been sent. */
  lemma TemperatureLastWriteWins(s: State, dev: DeviceId, t1: Temperature, t2: Temperature)
    requires dev in s.temperatures
    ensures var s1 := RegisterTemperatureData(s, dev, t1).state;
            RegisterTemperatureData(s1, dev, t2) == RegisterTemperatureData(s, dev, t2)
    ensures RegisterTemperatureData(RegisterTemperatureData(s, dev, t1).state, dev, t2).state.temperatures[dev] == Some(t2)
  {
  }

  /** Last write wins for images, as for temperatures. */
  lemma ImageLastWriteWins(s: State, dev: DeviceId, i1: Image, i2: Image)
    requires dev in s.images
    ensures var s1 := RegisterImageData(s, dev, i1).state;
            RegisterImageData(s1, dev, i2) == RegisterImageData(s, dev, i2)
    ensures RegisterImageData(RegisterImageData(s, dev, i1).state, dev, i2).state.images[dev] == Some(i2)
  {
  }

  /** Granting is idempotent: afterwards the user holds the permission, and
      granting again reports false and changes nothing. */
  lemma AddDomainPermissionIdempotent(s: State, u: UserId, d: DomainName)
    requires AddDomainPermission(s, u, d).Normal?
    ensures var s1 := AddDomainPermission(s, u, d).value.state;
            && AddDomainPermission(s1, u, d) == Normal(Update(s1, false))
            && (d in s.domains ==> HasDomainPermission(s1, u, d) == Normal(true))
  {
    if d in s.domains {
      var s1 := AddDomainPermission(s, u, d).value.state;
      assert s1.permissions[d] + {u} == s1.permissions[d];
      assert s1.permissions[d := s1.permissions[d] + {u}] == s1.permissions;
    }
  }

  /** A failed registration means the device is already in the domain, so the
      state is unchanged and a retry fails the same way. */
  lemma RegisterDeviceIdempotent(s: State, u: UserId, v: UserId, dev: DeviceId, d: DomainName)
    ensures var s1 := RegisterDevice(s, u, dev, d).state;
            RegisterDevice(s1, v, dev, d) == Update(s1, false)
  {
  }

  /** The permission map is shared by user ids and domain names: a new user
      whose id is a domain's name replaces that domain's permission set with
      the empty set, so nobody is permitted on it any more. */
  lemma UserNamedAfterDomainRevokesIt(s: State, d: DomainName, password: string)
    requires d in s.domains && d !in s.users
    ensures var s1 := RegisterUser(s, d, password).state;
            forall v :: HasDomainPermission(s1, v, d) == Normal(false)
  {
  }
}
